=== FILE: README.md ===
# Medieval village simulation — a Dafny model

This project models the headless simulation core of `simulation.py`. Villagers
with four roles (farmer, hunter, logger, blacksmith) live on a grid of forest,
field and water tiles. They trade with a fixed-price market and step through
days of three parts (Morning, Afternoon, Night) and seasons of three days.

Each step of a villager is modelled as a pure function, in the source's order:

- eat when hungry;
- buy winter wood;
- buy the role's primary tool;
- perform the role action on Morning and Afternoon;
- sell surplus;
- burn wood on winter nights;
- let hunger and rest decay, with the streak penalties.

A tick runs every villager in spawn order, then the world update (a storm on
Morning, forest regrowth every tick), then the clock. The run loop ticks until
the day count passes the configured number of days.

Modules, one per file:

| module | file | contents |
|---|---|---|
| `Util` | `util.dfy` | `Option`, `Min`, `Max` |
| `Catalog` | `catalog.dfy` | items, roles, prices, configuration constants |
| `Tools` | `tools.dfy` | tool instances as durability lists |
| `Villagers` | `villager.dfy` | the villager record and its tool helpers |
| `Ledger` | `market.dfy` | the market's buy and sell |
| `Tiles` | `grid.dfy` | the grid: generation, regrowth, storms, searches |
| `Calendar` | `clock.dfy` | the clock and `advance_time` |
| `Worlds` | `world.dfy` | the world and its per-tick resource update |
| `Actions` | `actions.dfy` | the role actions |
| `Needs` | `needs.dfy` | eating, essential purchases, surplus, winter wood, needs |
| `Simulation` | `simulation.dfy` | villager update, tick, spawning, the run loop |

The invariants the proofs carry:

- `Villagers.Sound`: every status lies in [0, 10]; food, wood and coins are never negative; every tool instance has durability in 1..10.
- `Worlds.WorldSound`: the grid has the world's size; no level is negative; no forest is above 10; no market stock is negative; the clock is consistent.
- `Calendar.Consistent`: the season index equals the number of completed three-day seasons, modulo 4.

Randomness is an input:

- The terrain draws of `_generate_tiles` are a `choice` grid.
- Each day's storm roll is a `Weather` value. A storm carries the (width * height) // 4 positions it hits.

Where the code and its documentation disagree, the model follows the code:

- Forests regrow on every tick, not once a day.
- A prepared field gains 2 levels with no upper bound.
- Rest only ever decays.
- `remove_tool` drops the newest instances.
- The code has no skills, tool repair, spoilage, partial order fills or market stock ceiling.
- The code has no disease, monsters, marriage or removal of dead villagers.

## Model

| member | source | states |
|---|---|---|
| Tools.AddInstances | simulation.py:640-642 | adding qty tools appends exactly qty fresh instances at durability 10 after the existing ones, which keep their place |
| Tools.RemoveNewest | simulation.py:644-647 | removing qty tools drops the min(qty, count) newest instances and keeps the older prefix; asking for more than held empties the list instead of failing |
| Tools.DegradeOldest | simulation.py:652-661 | wear hits only the oldest instance: it loses one unit and leaves the list exactly when it was at 1 or less; every newer instance is untouched; an empty list is left alone |
| Tools.AddKeepsUsable | simulation.py:640-642 | adding fresh instances keeps every durability within 1..10 |
| Tools.RemoveKeepsUsable | simulation.py:644-647 | removing instances keeps every durability within 1..10 |
| Tools.DegradeWearsOneUnit | simulation.py:652-661 | one use never leaves a spent instance behind, and the total durability left drops by exactly one |
| Tools.AddAddsFullDurability | simulation.py:640-642 | adding qty instances adds exactly qty * 10 units of durability |
| Tools.AddThenRemoveRestores | simulation.py:640-647 | last in, first out: removing as many instances as were just added gives back the original list |
| Tools.DegradeIgnoresNewInstances | simulation.py:652-661 | wear and supply act on opposite ends of the list, so on a non-empty list degrading after an add equals adding after a degrade |
| Villagers.NewVillager | simulation.py:343-365 | a spawned villager has the given id and role, holds no tool of any kind, and satisfies every bound |
| Villagers.NewVillagerIsSound | simulation.py:343-365 | a spawned villager satisfies every bound and starts with 10 coins plus 3 food and 2 wood, worth 17 at market prices, with hunger, rest, health and happiness at 10, both streaks at 0 and no tools |
| Villagers.ToolCount | simulation.py:649-650 | the count is zero exactly when the villager holds no instance of the tool |
| Villagers.ToolCountBounds | simulation.py:649-650 | for a sound villager every counted instance carries between one unit and a new tool's durability, so the count lies between the remaining durability divided by 10 and the remaining durability |
| Villagers.AddTool | simulation.py:640-642 | the villager's count of that tool rises by qty, the old instances form the prefix, the new ones are at full durability, and nothing else about the villager changes |
| Villagers.RemoveTool | simulation.py:644-647 | the count falls by min(qty, count), what remains is the oldest prefix, and nothing else changes |
| Villagers.DegradeTool | simulation.py:652-661 | without the tool nothing changes; with it, the count drops by one exactly when the oldest instance was at 1; the newer instances survive unchanged; other tools and fields are untouched; a sound villager stays sound and loses one unit of durability |
| Villagers.LastUseBreaksTool | simulation.py:656-659 | an instance at durability 1 breaks on its next use and the remaining list is the newer instances |
| Villagers.AddThenRemoveToolRestores | simulation.py:640-647 | giving a villager qty tools and removing qty again restores the villager exactly |
| Ledger.Buy | simulation.py:176-201 | the purchase succeeds exactly when stock covers qty and coins cover price * qty; on success coins fall by price * qty, stock falls by qty and the holding rises by qty (tools as fresh instances); on refusal nothing changes; other items, stocks and the person are untouched; soundness of villager and market is kept |
| Ledger.Sell | simulation.py:203-227 | the sale succeeds exactly when the villager holds qty; on success the holding falls by qty (the newest tool instances go), coins rise by price * qty and stock rises by qty; on refusal nothing changes; soundness is kept |
| Ledger.BuyThenSellRestores | simulation.py:176-227 | selling back what was just bought succeeds, restores the villager exactly and every stock level, and restores the stock map itself when the item was listed |
| Ledger.BuyConservesGoodsAndWealth | simulation.py:176-201 | a purchase conserves every item's holding plus market stock, and the villager's wealth at market prices |
| Ledger.SellConservesGoodsAndWealth | simulation.py:203-227 | a sale conserves every item's holding plus market stock, and the villager's wealth at market prices |
| Ledger.BuyWoodExample | simulation.py:176-201 | buying 3 wood at price 2 from a stock of 5 with 10 coins leaves stock 2 and coins 4 |
| Tiles.BaseGrid | simulation.py:252-262 | the grid has the shape of the draws, and each tile is the drawn terrain at its starting level (forest 5, field 1, water 0) with no owner |
| Tiles.ClaimPlots | simulation.py:264-274 | exactly the plot-column tiles of the claimed rows become owned fertile fields (level 5, owner row - 1); every other tile is unchanged |
| Tiles.GenerateTiles | simulation.py:250-276 | the generated grid has the world's size and sound levels; farmer k owns the level-5 field at row k + 1, column 2 for rows below the height; every other tile is the drawn terrain at its starting level |
| Tiles.Regrow | simulation.py:297-301 | every forest gains one level up to 10, fields and water are unchanged, layout is kept, and sound grids stay sound |
| Tiles.RegrowTimesSaturates | simulation.py:297-301 | after n regrowth passes a forest stands at min(level + n, 10) and every other tile is unchanged |
| Tiles.Storm | simulation.py:309-313 | the hit loop changes only levels: the grid's shape, every terrain and every owner are kept |
| Tiles.StormLevels | simulation.py:307-312 | a tile hit k times by a storm ends at max(0, level - 2k) whatever the order of the hits; tiles never hit are untouched |
| Tiles.StormKeepsSound | simulation.py:307-312 | a storm never raises a level and keeps every level non-negative and every forest under its cap |
| Tiles.FindFirst | simulation.py:686-690 | the row-major scan returns a matching tile with no matching tile before it, and returns None exactly when no tile matches |
| Tiles.FindOwnedOrPublicField | simulation.py:666-680 | the villager's own first field with resources is preferred; an unowned one is returned only when the villager owns none; None exactly when neither exists |
| Tiles.FindTileWithResources | simulation.py:682-690 | the first tile of the terrain with a positive level in row-major order, or None exactly when there is none |
| Calendar.CurrentSeason | simulation.py:281-282 | the season is the entry of the list Spring, Summer, Autumn, Winter at the season index modulo 4 |
| Calendar.PartOfDay | simulation.py:278-279 | the part of day is the entry of the list Morning, Afternoon, Night at the part index |
| Calendar.AdvanceTime | simulation.py:318-332 | the part index wraps from Night to Morning, the day count rises exactly on that wrap, and a consistent clock stays consistent and moves one part of day forward |
| Calendar.NewDayStaysConsistent | simulation.py:327-332 | stepping the season index when the new day opens a season, wrapping after Winter, keeps it equal to the completed seasons modulo 4 |
| Calendar.SeasonFollowsDay | simulation.py:281-282 | the current season of a consistent clock is determined by the day count alone |
| Calendar.AdvanceFromDawn | simulation.py:318-332 | n advances from day 1 Morning land on day n / 3 + 1, part n % 3, with a consistent clock |
| Worlds.IsWinter | simulation.py:284-285 | it is winter exactly when the current season is Winter; on a consistent clock, exactly when the completed-season count (day - 1) / 3 is 3 modulo 4 |
| Worlds.NewWorld | simulation.py:238-248 | a new world is sound, opens with the initial market stock and stands at day 1, Spring, Morning |
| Worlds.TriggerStorm | simulation.py:303-316 | a storm changes only levels, leaving each tile at max(0, level - 2 * hits), and keeps the world sound |
| Worlds.UpdateKeepsIdleField | simulation.py:287-316 | neither a storm nor regrowth lifts an idle field |
| Worlds.UpdateResourcesAndEvents | simulation.py:287-301 | a storm strikes only on Morning when one is rolled; regrowth follows on every tick; layout, market and clock are unchanged; non-forest levels never rise; the world stays sound |
| Actions.Forage | simulation.py:553-559 | foraging adds exactly one food and changes nothing else |
| Actions.Wield | simulation.py:494-498 | using a tool wears its oldest instance when one is held and changes nothing otherwise; other tools are untouched; soundness is kept |
| Actions.Harvest | simulation.py:463-474 | only the harvested field changes, and it drops to level 0; the farmer gains the whole level with a hoe, or half rounded down without; only the hoe wears and nothing else about the farmer changes (needs, coins and wood are kept); the world keeps its frame and market, and soundness of world and villager is kept |
| Actions.Farm | simulation.py:455-486 | without a field, or in Winter, the farmer forages; in Autumn the target field is emptied and yields its whole level with a hoe (which wears) or half of it rounded down without; in Spring and Summer it gains 2 levels; only that tile changes; the target is the farmer's own field or an unowned one |
| Actions.HarvestedFieldStaysIdle | simulation.py:463-474 | right after an Autumn harvest the field is idle (a field at level 0): neither the owner's search nor the search for unowned fields wants it, and regrowth leaves it as it is |
| Actions.FarmKeepsIdleField | simulation.py:455-486 | farming never lifts an idle field: the field the farmer works is one the search wanted, so never an idle one |
| Actions.ForestActionKeepsIdleField | simulation.py:488-522 | hunting or logging, which changes at most one forest tile, leaves every idle field idle |
| Actions.RoleActionKeepsIdleField | simulation.py:445-453 | no role action, whatever the role, lifts an idle field |
| Actions.Hunt | simulation.py:488-504 | on the first forest with resources: +2 food with a bow (which wears) or +1 without, and that forest alone loses one level, floored at 0; without such a forest the hunter forages |
| Actions.LogWood | simulation.py:506-522 | on the first forest with resources: +2 wood with an axe (which wears) or +1 without, and that forest alone loses two levels, floored at 0; without such a forest the logger forages |
| Actions.LeastStockedTool | simulation.py:529-533 | the chosen tool has the lowest market stock, and every tool earlier in the axe, bow, hoe order has strictly more |
| Actions.CraftTools | simulation.py:524-551 | the blacksmith buys one wood only if it has none and can pay; holding wood, it turns one wood into the least-stocked tool and sells it; its own tools are unchanged; the net effect on coins and on every stock is given in closed form; the grid is untouched |
| Actions.CraftingProfit | simulation.py:524-551 | when a tool is made the blacksmith's wealth at market prices grows by the tool's price less the wood's price, and exactly one unit of wood leaves the village's holdings plus stock; when none is made neither moves |
| Actions.DoRoleAction | simulation.py:445-453 | the farmer farms, the hunter hunts, the logger logs and the blacksmith crafts; only the blacksmith trades or changes coins; the blacksmith never touches the grid or its own tools; the hunter and the blacksmith never touch their hoes |
| Actions.HarvestWithHoeExample | simulation.py:463-474 | an Autumn harvest of an owned level-8 field with a hoe yields 8 food and empties the field |
| Needs.EatIfNeeded | simulation.py:403-414 | one food becomes two hunger only when hunger is below 5 and food is held; otherwise nothing changes; soundness is kept |
| Needs.EatExample | simulation.py:403-414 | hunger 4 with 2 food becomes hunger 6 with 1 food |
| Needs.BuyEssentialItems | simulation.py:416-425 | exactly in winter, without wood, with the price in hand and wood in stock, one wood is bought for 2 coins; otherwise nothing changes |
| Catalog.PrimaryTool | simulation.py:431-436 | the tool is the role's entry in the map Farmer to hoe, Hunter to bow, Logger to axe, and there is none exactly for the blacksmith |
| Needs.BuyPrimaryTool | simulation.py:427-440 | a farmer, hunter or logger without its tool buys one fresh instance when the market allows; the blacksmith never buys |
| Needs.Provision | simulation.py:382-384 | the opening of a step changes the villager's hunger exactly as eating does, and no other need, streak, id or role; soundness of villager and market is kept |
| Needs.ProvisionConserves | simulation.py:382-384 | after eating, the winter-wood and tool purchases keep the villager's wealth at market prices and every item's holding plus stock |
| Needs.SellSurplus | simulation.py:564-582 | food above 5 and wood above max(5, 1 in winter) are sold off in full; coins and stocks move by the amounts sold; tools and tool stocks are unchanged |
| Needs.SellSurplusConserves | simulation.py:564-582 | selling surplus conserves the villager's wealth at market prices and each item's holding plus stock |
| Needs.ConsumeWoodAtNight | simulation.py:584-594 | a winter night burns one wood, or, with none, costs one health and one happiness, floored at 0 |
| Needs.UpdateNeedsAndPenalties | simulation.py:599-635 | hunger and rest fall by a third of their daily amount, floored at 0; each streak counts consecutive low steps and resets otherwise; each streak above 1 costs one health and one happiness, floored at 0 |
| Needs.PenaltyNeedsTwoLowSteps | simulation.py:611-635 | for a villager with health at least 1 (health 0 cannot fall further), health falls exactly when a need ends this step below 3 after already having been low the step before |
| Needs.BothPenaltiesFire | simulation.py:623-635 | with both streaks running, one step costs two health, and happiness is floored at 0 |
| Needs.DailyDecay | simulation.py:604-609 | over the three parts of a day a need that stays positive loses exactly its daily amount |
| Simulation.WindDown | simulation.py:389-394 | after selling surplus, winter-night burning and decay, the villager holds at most 5 food and 5 wood; a sound villager stays sound and gains no health or happiness |
| Simulation.UpdateVillager | simulation.py:370-395 | one villager step runs the opening (eat, buy wood, buy tool), then the role action, then the wind-down, in that order: its grid is the acted grid and its villager the wound-down acted villager; it keeps the world's frame, leaves the grid alone at Night, ends with at most 5 food and 5 wood, keeps a sound world sound, and a sound villager stays sound and never gains health or happiness |
| Simulation.Act | simulation.py:386-387 | the role action runs exactly on Morning and Afternoon; at Night nothing changes |
| Simulation.UpdateVillagerKeepsIdleField | simulation.py:370-395 | one villager step leaves every idle field idle |
| Simulation.UpdateAllKeepsIdleField | simulation.py:751-752 | a whole pass over the roster leaves every idle field idle |
| Simulation.UpdateAll | simulation.py:751-752 | a pass over the roster keeps its length, order, ids and roles, keeps the world's frame and keeps the world sound; an empty roster leaves the world as it is, and the first villager is updated on the world as given |
| Simulation.UpdateAllKeepsVillagersSound | simulation.py:751-752 | sound villagers stay sound through a pass, and none gains health |
| Simulation.Tick | simulation.py:749-756 | one tick is the villager pass, then the resource and event update on the world the pass left, then one clock advance; it keeps the world sound, moves the clock exactly one part of day forward, and keeps the roster and its soundness |
| Simulation.TickKeepsIdleField | simulation.py:749-756 | one tick, villagers and world together, leaves every idle field idle |
| Simulation.SpawnVillagers | simulation.py:724-741 | the roster has one villager per configured slot, with ids 1..N in order and roles grouped farmers, hunters, loggers, blacksmiths |
| Simulation.Run | simulation.py:743-756 | the loop makes exactly one tick per remaining part of day (totalDays * 3 from a new world), stops on the Morning after the last day, and keeps the roster and every invariant; a field idle at the start is idle at the end, so a harvested field is never worked again |
| Simulation.FarmerFindsOwnPlot | simulation.py:264-274 | in a freshly generated world farmer k finds their own plot at row k + 1, column 2 |
| Simulation.Simulate | simulation.py:767-770 | the configured run makes 108 ticks and ends with the four villagers, in role order with ids 1..4, all sound, in a sound world |

## Left out

- Logging, stats recording, log export and chart generation (`log_action`, `export_log`, `generate_charts`, `record_stats`): output only; they never feed back into the state.
- `promptgenerator.py`: a separate tool that does not take part in the simulation.
- Random draws: the terrain choices, the storm roll and the storm positions are inputs. `STORM_PROBABILITY` only decides whether a day's `Weather` is `Stormy`, which the caller supplies.
- Needs.UpdateNeedsAndPenalties: hunger and rest are exact reals. Floating-point rounding of the repeated `/ 3.0` is not modelled.
- Ledger.Buy: `qty` is a natural number. With qty 0 for an item missing from the stock map the source would raise a `KeyError`; the model treats it as an empty purchase. The opening stock lists all five items.
- The world reference each villager keeps is passed explicitly as a parameter; the villagers' view of the clock is the world's.
- Tiles.GenerateTiles: it requires the plot column to exist when plots are claimed, as the source would otherwise raise an `IndexError`. The unreachable `break` of the farmland loop is not modelled.
- Calendar.PartOfDay: the part index must be in 0..2; an index of 3 or more raises `IndexError` in the source, and the index is never negative.
- Villager inventory: kept as two counters, food and wood. The source's dictionary never holds other keys, and tools never enter it.
- Worlds.UpdateResourcesAndEvents: the Calm or Stormy roll is read only on Morning. On other parts of the day the supplied weather is ignored, as the source draws no number then.
- Simulation.Run: the run is over an explicit `totalDays` and a list of daily storm rolls indexed by day.

=== FILE: actions.dfy ===
/**
 * The role actions a villager performs on Morning and Afternoon: farming by
 * season, hunting, logging, tool crafting, and foraging as the fallback.
 */
module Actions {
  import opened Util
  import opened Catalog
  import opened Villagers
  import opened Ledger
  import opened Tiles
  import opened Calendar
  import opened Worlds

  /** Exactly tile `p` may differ between the two grids; all others agree. */
  predicate OnlyTileChanged(g: Grid, g': Grid, p: Pos)
  {
    && SameShape(g, g')
    && forall y, x :: 0 <= y < |g| && 0 <= x < |g[y]| && Pos(y, x) != p ==> g'[y][x] == g[y][x]
  }

  /** `forage`: the universal fallback, one more food. */
  function Forage(v: Villager): (r: Villager)
    ensures r.food == v.food + FORAGE_YIELD
    ensures r == v.(food := r.food)
    ensures Sound(v) ==> Sound(r)
  {
    v.(food := v.food + FORAGE_YIELD)
  }

  /** Tile `p` of the world set to `level`; nothing else changes. */
  function Relevel(w: World, p: Pos, level: int): (r: World)
    requires InBounds(w.grid, p) && level >= 0
    requires At(w.grid, p).terrain == Forest ==> level <= At(w.grid, p).level
    ensures SameFrame(w, r) && r.market == w.market
    ensures OnlyTileChanged(w.grid, r.grid, p) && At(r.grid, p).level == level
    ensures WorldSound(w) ==> WorldSound(r)
  {
    w.(grid := SetLevel(w.grid, p, level))
  }

  /** One use of tool `t`: the oldest instance wears if the villager holds one. */
  function Wield(v: Villager, t: Tool): (r: Villager)
    ensures r == v.(tools := r.tools)
    ensures r.tools == (if ToolCount(v, t) > 0 then DegradeTool(v, t).tools else v.tools)
    ensures forall u: Tool :: u != t ==> r.tools.Get(u) == v.tools.Get(u)
    ensures Sound(v) ==> Sound(r)
  {
    if ToolCount(v, t) > 0 then DegradeTool(v, t) else v
  }

  /**
   * The Autumn branch of `farm` on field `p`: the whole level with a hoe
   * (which wears), half of it rounded down without, and the field emptied.
   */
  function Harvest(w: World, v: Villager, p: Pos): (r: Step)
    requires InBounds(w.grid, p) && At(w.grid, p).level > 0 && At(w.grid, p).terrain == Field
    ensures r.world == Relevel(w, p, 0)
    ensures r.villager.food == v.food + (if ToolCount(v, Hoe) > 0 then At(w.grid, p).level else At(w.grid, p).level / 2)
    ensures r.villager == Wield(v, Hoe).(food := r.villager.food)
    ensures SameFrame(w, r.world) && r.world.market == w.market
    ensures OnlyTileChanged(w.grid, r.world.grid, p) && At(r.world.grid, p).level == 0
    ensures SamePerson(v, r.villager) && r.villager.coins == v.coins && r.villager.wood == v.wood
    ensures r.villager.tools == Wield(v, Hoe).tools
    ensures WorldSound(w) ==> WorldSound(r.world)
    ensures Sound(v) ==> Sound(r.villager)
  {
    var level := At(w.grid, p).level;
    var amount := if ToolCount(v, Hoe) > 0 then level else level / 2;
    var worn := Wield(v, Hoe);
    Step(Relevel(w, p, 0), worn.(food := worn.food + amount))
  }

  /**
   * `farm`: the target is the villager's own first field with resources, else
   * the first unowned one. Without a target the villager forages. In Autumn
   * the whole level is harvested with a hoe (which wears) or half of it,
   * rounded down, without one, and the field is emptied. In Spring and Summer
   * the field gains two levels. In Winter the villager forages.
   */
  function Farm(w: World, v: Villager): (r: Step)
    ensures SameFrame(w, r.world) && r.world.market == w.market
    ensures SamePerson(v, r.villager) && r.villager.coins == v.coins && r.villager.wood == v.wood
    ensures forall t: Tool :: t != Hoe ==> r.villager.tools.Get(t) == v.tools.Get(t)
    ensures FindOwnedOrPublicField(w.grid, v.id).None? ==> r == Step(w, Forage(v))
    ensures CurrentSeason(w.clock) == Winter ==> r == Step(w, Forage(v))
    ensures FindOwnedOrPublicField(w.grid, v.id).Some? ==>
              var p := FindOwnedOrPublicField(w.grid, v.id).value;
              var level := At(w.grid, p).level;
              && InBounds(w.grid, p) && level > 0 && At(w.grid, p).terrain == Field
              && (At(w.grid, p).owner == Some(v.id) || At(w.grid, p).owner == None)
              && (CurrentSeason(w.clock) == Autumn ==>
                    && OnlyTileChanged(w.grid, r.world.grid, p)
                    && At(r.world.grid, p).level == 0
                    && r.villager.food == v.food + (if ToolCount(v, Hoe) > 0 then level else level / 2)
                    && r.villager.tools == Wield(v, Hoe).tools)
              && (CurrentSeason(w.clock) in {Spring, Summer} ==>
                    && OnlyTileChanged(w.grid, r.world.grid, p)
                    && At(r.world.grid, p).level == level + FIELD_PREPARE_GAIN
                    && r.villager == v)
    ensures WorldSound(w) ==> WorldSound(r.world)
    ensures Sound(v) ==> Sound(r.villager)
  {
    match FindOwnedOrPublicField(w.grid, v.id)
    case None => Step(w, Forage(v))
    case Some(p) =>
      match CurrentSeason(w.clock)
      case Autumn => Harvest(w, v, p)
      case Spring => Step(Relevel(w, p, At(w.grid, p).level + FIELD_PREPARE_GAIN), v)
      case Summer => Step(Relevel(w, p, At(w.grid, p).level + FIELD_PREPARE_GAIN), v)
      case Winter => Step(w, Forage(v))
  }

  /**
   * `hunt`: on the first forest with resources, +2 food with a bow (which
   * wears) or +1 without, and the forest loses one level, floored at 0.
   * Without such a forest the villager forages.
   */
  function Hunt(w: World, v: Villager): (r: Step)
    ensures SameFrame(w, r.world) && r.world.market == w.market
    ensures SamePerson(v, r.villager) && r.villager.coins == v.coins && r.villager.wood == v.wood
    ensures forall t: Tool :: t != Bow ==> r.villager.tools.Get(t) == v.tools.Get(t)
    ensures FindTileWithResources(w.grid, Forest).None? ==> r == Step(w, Forage(v))
    ensures FindTileWithResources(w.grid, Forest).Some? ==>
              var p := FindTileWithResources(w.grid, Forest).value;
              && InBounds(w.grid, p)
              && OnlyTileChanged(w.grid, r.world.grid, p)
              && At(r.world.grid, p).level == Max(At(w.grid, p).level - HUNT_DEPLETION, 0)
              && r.villager.food == v.food + (if ToolCount(v, Bow) > 0 then BASE_HUNT_YIELD else FALLBACK_HUNT_YIELD)
              && r.villager.tools == Wield(v, Bow).tools
    ensures WorldSound(w) ==> WorldSound(r.world)
    ensures Sound(v) ==> Sound(r.villager)
  {
    match FindTileWithResources(w.grid, Forest)
    case None => Step(w, Forage(v))
    case Some(p) =>
      var amount := if ToolCount(v, Bow) > 0 then BASE_HUNT_YIELD else FALLBACK_HUNT_YIELD;
      var worn := Wield(v, Bow);
      Step(Relevel(w, p, Max(At(w.grid, p).level - HUNT_DEPLETION, 0)), worn.(food := worn.food + amount))
  }

  /**
   * `log_wood`: on the first forest with resources, +2 wood with an axe
   * (which wears) or +1 without, and the forest loses two levels, floored at
   * 0. Without such a forest the villager forages.
   */
  function LogWood(w: World, v: Villager): (r: Step)
    ensures SameFrame(w, r.world) && r.world.market == w.market
    ensures SamePerson(v, r.villager) && r.villager.coins == v.coins
    ensures forall t: Tool :: t != Axe ==> r.villager.tools.Get(t) == v.tools.Get(t)
    ensures FindTileWithResources(w.grid, Forest).None? ==> r == Step(w, Forage(v))
    ensures FindTileWithResources(w.grid, Forest).Some? ==>
              var p := FindTileWithResources(w.grid, Forest).value;
              && InBounds(w.grid, p)
              && OnlyTileChanged(w.grid, r.world.grid, p)
              && At(r.world.grid, p).level == Max(At(w.grid, p).level - LOG_DEPLETION, 0)
              && r.villager.food == v.food
              && r.villager.wood == v.wood + (if ToolCount(v, Axe) > 0 then BASE_LOG_YIELD else FALLBACK_LOG_YIELD)
              && r.villager.tools == Wield(v, Axe).tools
    ensures WorldSound(w) ==> WorldSound(r.world)
    ensures Sound(v) ==> Sound(r.villager)
  {
    match FindTileWithResources(w.grid, Forest)
    case None => Step(w, Forage(v))
    case Some(p) =>
      var amount := if ToolCount(v, Axe) > 0 then BASE_LOG_YIELD else FALLBACK_LOG_YIELD;
      var worn := Wield(v, Axe);
      Step(Relevel(w, p, Max(At(w.grid, p).level - LOG_DEPLETION, 0)), worn.(wood := worn.wood + amount))
  }

  /** The position of a tool in the `["axe", "bow", "hoe"]` scan order. */
  function ToolRank(t: Tool): nat
  {
    if t == Axe then 0 else if t == Bow then 1 else 2
  }

  /**
   * `min(stocks, key=stocks.get)`: a tool with the lowest market stock; on a
   * tie, the earliest of axe, bow, hoe.
   */
  function LeastStockedTool(m: Market): (t: Tool)
    ensures forall u: Tool :: m.Stock(t) <= m.Stock(u)
    ensures forall u: Tool :: ToolRank(u) < ToolRank(t) ==> m.Stock(t) < m.Stock(u)
  {
    var a := m.Stock(Axe);
    var b := m.Stock(Bow);
    var h := m.Stock(Hoe);
    if a <= b && a <= h then Axe else if b <= h then Bow else Hoe
  }

  /**
   * `craft_tools`: the blacksmith buys one wood if it has none, and, holding
   * wood, turns one wood into the least-stocked tool and sells it at once.
   * The tool sold is the one just made, so the blacksmith's own tools are
   * untouched; the net effect is wood into the market's tool stock and the
   * tool's price into the blacksmith's purse.
   */
  function CraftTools(w: World, v: Villager): (r: Step)
    ensures SameFrame(w, r.world) && r.world.grid == w.grid
    ensures SamePerson(v, r.villager) && r.villager.food == v.food
    ensures r.villager.tools == v.tools
    ensures var least := LeastStockedTool(w.market);
            var bought := v.wood < 1 && w.market.Stock(Wood) >= 1 && v.coins >= Price(Wood);
            var held := if bought then v.wood + 1 else v.wood;
            var crafted := held >= 1;
            && r.villager.wood == (if crafted then held - 1 else held)
            && r.villager.coins == v.coins - (if bought then Price(Wood) else 0) + (if crafted then Price(least) else 0)
            && r.world.market.Stock(Wood) == w.market.Stock(Wood) - (if bought then 1 else 0)
            && r.world.market.Stock(least) == w.market.Stock(least) + (if crafted then 1 else 0)
            && forall i: Item :: i != Wood && i != least ==> r.world.market.Stock(i) == w.market.Stock(i)
    ensures WorldSound(w) ==> WorldSound(r.world)
    ensures Sound(v) ==> Sound(r.villager)
  {
    var m := w.market;
    var least := LeastStockedTool(m);
    var supplied := if v.wood < 1 then Buy(m, v, Wood, 1) else Trade(false, m, v);
    var v1 := supplied.villager;
    if v1.wood < 1 then Step(w.(market := supplied.market), v1)
    else
      var made := AddTool(v1.(wood := v1.wood - 1), least, 1);
      var sale := Sell(supplied.market, made, least, 1);
      AddThenRemoveToolRestores(v1.(wood := v1.wood - 1), least, 1);
      assert sale.villager.tools == v1.tools;
      Step(w.(market := sale.market), sale.villager)
  }

  /**
   * Crafting is the only way value enters the village's trade: when a tool
   * is made, the blacksmith's wealth at market prices grows by the tool's
   * price less the price of the wood it consumed, and one unit of wood
   * leaves the village (holding plus market stock); otherwise neither moves.
   */
  lemma CraftingProfit(w: World, v: Villager)
    ensures var r := CraftTools(w, v);
            var made := r.world.market.Stock(LeastStockedTool(w.market)) > w.market.Stock(LeastStockedTool(w.market));
            && Wealth(r.villager) == Wealth(v) + (if made then Price(LeastStockedTool(w.market)) - Price(Wood) else 0)
            && r.villager.wood + r.world.market.Stock(Wood) == v.wood + w.market.Stock(Wood) - (if made then 1 else 0)
  {
    var r := CraftTools(w, v);
    assert ToolCount(r.villager, Axe) == ToolCount(v, Axe);
    assert ToolCount(r.villager, Bow) == ToolCount(v, Bow);
    assert ToolCount(r.villager, Hoe) == ToolCount(v, Hoe);
  }

  /** `do_role_action`: each role's action. */
  function DoRoleAction(w: World, v: Villager): (r: Step)
    ensures SameFrame(w, r.world)
    ensures SamePerson(v, r.villager)
    ensures v.role != Blacksmith ==> r.world.market == w.market && r.villager.coins == v.coins
    ensures v.role == Blacksmith ==> r.world.grid == w.grid && r.villager.tools == v.tools
    ensures v.role == Blacksmith || v.role == Hunter ==> r.villager.tools.Get(Hoe) == v.tools.Get(Hoe)
    ensures WorldSound(w) ==> WorldSound(r.world)
    ensures Sound(v) ==> Sound(r.villager)
    ensures v.role == Farmer ==> r == Farm(w, v)
    ensures v.role == Hunter ==> r == Hunt(w, v)
    ensures v.role == Logger ==> r == LogWood(w, v)
    ensures v.role == Blacksmith ==> r == CraftTools(w, v)
  {
    match v.role
    case Farmer => Farm(w, v)
    case Hunter => Hunt(w, v)
    case Logger => LogWood(w, v)
    case Blacksmith => CraftTools(w, v)
  }

  /**
   * The field searches want a level above 0 and regrowth never touches
   * fields, so a harvested field is never found again: neither its owner
   * nor anyone else can prepare or harvest it, now or after regrowth.
   */
  lemma HarvestedFieldStaysIdle(w: World, v: Villager, p: Pos, id: nat)
    requires InBounds(w.grid, p) && At(w.grid, p).level > 0 && At(w.grid, p).terrain == Field
    ensures var g := Harvest(w, v, p).world.grid;
            && IdleField(g, p)
            && !Wanted(At(g, p), OwnedField(id)) && !Wanted(At(g, p), PublicField)
            && At(Regrow(g), p) == At(g, p)
  {
  }

  /**
   * No role action lifts a field from level 0: farming only touches a field
   * it found with resources, hunting and logging only touch forests, and
   * crafting leaves the grid alone.
   */
  lemma RoleActionKeepsIdleField(w: World, v: Villager, p: Pos)
    requires IdleField(w.grid, p)
    ensures IdleField(DoRoleAction(w, v).world.grid, p)
  {
    match v.role {
      case Farmer => FarmKeepsIdleField(w, v, p);
      case Hunter => ForestActionKeepsIdleField(w, p, Hunt(w, v).world);
      case Logger => ForestActionKeepsIdleField(w, p, LogWood(w, v).world);
      case Blacksmith =>
    }
  }

  /** Farming touches only the field it found, and that field had resources. */
  lemma FarmKeepsIdleField(w: World, v: Villager, p: Pos)
    requires IdleField(w.grid, p)
    ensures IdleField(Farm(w, v).world.grid, p)
  {
    var g := Farm(w, v).world.grid;
    match FindOwnedOrPublicField(w.grid, v.id) {
      case None =>
      case Some(q) =>
        assert q != p;
        assert |g[p.row]| == |w.grid[p.row]|;
    }
  }

  /**
   * A world `w'` that differs from `w` at most in the first stocked forest,
   * as after hunting or logging, keeps every idle field idle.
   */
  lemma ForestActionKeepsIdleField(w: World, p: Pos, w': World)
    requires IdleField(w.grid, p)
    requires FindTileWithResources(w.grid, Forest).None? ==> w'.grid == w.grid
    requires FindTileWithResources(w.grid, Forest).Some? ==>
               OnlyTileChanged(w.grid, w'.grid, FindTileWithResources(w.grid, Forest).value)
    ensures IdleField(w'.grid, p)
  {
    match FindTileWithResources(w.grid, Forest) {
      case None =>
      case Some(q) =>
        assert q != p;
        assert |w'.grid[p.row]| == |w.grid[p.row]|;
    }
  }

  /** Scenario: a level-8 field harvested in Autumn with a hoe yields 8 food and is emptied. */
  lemma HarvestWithHoeExample(w: World, v: Villager)
    requires CurrentSeason(w.clock) == Autumn
    requires w.grid == [[Tile(Field, 8, Some(v.id))]]
    requires ToolCount(v, Hoe) > 0
    ensures Farm(w, v).villager.food == v.food + 8
    ensures Farm(w, v).world.grid == [[Tile(Field, 0, Some(v.id))]]
  {
    assert IsFirst(w.grid, OwnedField(v.id), Pos(0, 0));
    var p := FindOwnedOrPublicField(w.grid, v.id);
    assert p.Some?;
    FirstIsUnique(w.grid, OwnedField(v.id), p.value, Pos(0, 0));
    var g := Farm(w, v).world.grid;
    assert |g| == 1 && |g[0]| == 1 && g[0][0] == Tile(Field, 0, Some(v.id));
    assert g[0] == [Tile(Field, 0, Some(v.id))];
  }
}

=== FILE: catalog.dfy ===
/**
 * The fixed configuration of the village: items and their prices, roles,
 * and the numeric constants of the simulation.
 */
module Catalog {
  import opened Util

  /** Every tradable thing. Axe, bow and hoe are tools; food and wood are resources. */
  datatype Item = Food | Wood | Axe | Bow | Hoe {
    predicate IsTool()
    {
      Axe? || Bow? || Hoe?
    }
  }

  /** The items kept as individually worn instances rather than counters. */
  type Tool = i: Item | i.IsTool() witness Axe

  /** A villager's job; the spawn order of the roles is Farmer, Hunter, Logger, Blacksmith. */
  datatype Role = Farmer | Hunter | Logger | Blacksmith

  // Grid and time
  const GRID_WIDTH: nat := 10
  const GRID_HEIGHT: nat := 10
  const TOTAL_DAYS_TO_RUN: nat := 36

  // Production
  const BASE_HUNT_YIELD: int := 2
  const BASE_LOG_YIELD: int := 2
  const FALLBACK_HUNT_YIELD: int := 1
  const FALLBACK_LOG_YIELD: int := 1
  const FORAGE_YIELD: int := 1
  const FIELD_PREPARE_GAIN: int := 2
  const FOREST_CAP: int := 10
  const HUNT_DEPLETION: int := 1
  const LOG_DEPLETION: int := 2

  // Consumption and needs
  const SURPLUS_FOOD: int := 5
  const SURPLUS_WOOD: int := 5
  const WINTER_WOOD_CONSUMPTION: int := 1
  const HUNGER_DECREMENT_PER_DAY: real := 1.0
  const REST_DECREMENT_PER_DAY: real := 1.0
  const HUNGER_CRITICAL_THRESHOLD: real := 5.0
  const EAT_GAIN: real := 2.0
  const HUNGER_LOW_PENALTY_THRESHOLD: real := 3.0
  const REST_LOW_PENALTY_THRESHOLD: real := 3.0
  const HEALTH_PENALTY_FOR_LOW_NEEDS: int := 1
  const HAPPINESS_PENALTY_FOR_LOW_NEEDS: int := 1
  const COLD_PENALTY: int := 1
  const STATUS_MAX: int := 10

  // Tools, storms and initial holdings
  const INITIAL_TOOL_DURABILITY: int := 10
  const STORM_RESOURCE_REDUCTION: int := 2
  const STORM_AREA_DIVISOR: nat := 4
  const NUM_FARMERS: nat := 1
  const NUM_HUNTERS: nat := 1
  const NUM_LOGGERS: nat := 1
  const NUM_BLACKSMITHS: nat := 1
  const INITIAL_VILLAGER_FOOD: int := 3
  const INITIAL_VILLAGER_WOOD: int := 2
  const INITIAL_VILLAGER_COINS: int := 10

  /** The fixed market price of each item (ITEM_PRICES). */
  function Price(i: Item): nat
  {
    match i
    case Food => 1
    case Wood => 2
    case Axe => 5
    case Bow => 5
    case Hoe => 5
  }

  /** The market's opening stock (INITIAL_MARKET_STOCK). */
  function InitialMarketStock(): map<Item, int>
  {
    map[Food := 50, Wood := 50, Axe := 5, Bow := 5, Hoe := 5]
  }

  /** `role_tool_map` as written: the blacksmith has no entry worth buying. */
  const ROLE_TOOL_MAP: map<Role, Tool> := map[Farmer := Hoe, Hunter := Bow, Logger := Axe]

  /** The tool each role keeps at least one of; the blacksmith needs none. */
  function PrimaryTool(role: Role): (r: Option<Tool>)
    ensures r == (if role in ROLE_TOOL_MAP then Some(ROLE_TOOL_MAP[role]) else None)
    ensures r.None? <==> role == Blacksmith
  {
    match role
    case Farmer => Some(Hoe)
    case Hunter => Some(Bow)
    case Logger => Some(Axe)
    case Blacksmith => None
  }
}

=== FILE: clock.dfy ===
/**
 * The simulation clock: part of day, day count and season index, and the
 * `advance_time` step that moves them forward.
 */
module Calendar {

  datatype Season = Spring | Summer | Autumn | Winter
  datatype Part = Morning | Afternoon | Night

  const DAYS_PER_SEASON: int := 3
  const NUM_SEASONS: int := 4
  const NUM_PARTS: int := 3

  /** The configured season list, in calendar order (SEASONS). */
  const SEASONS: seq<Season> := [Spring, Summer, Autumn, Winter]
  /** The configured part-of-day list, in order (PARTS_OF_DAY). */
  const PARTS_OF_DAY: seq<Part> := [Morning, Afternoon, Night]

  /** `day_count`, `season_index` and `part_of_day_index` of the world. */
  datatype Clock = Clock(day: int, seasonIndex: int, partIndex: int)

  /** The clock of a new world: day 1, Spring, Morning. */
  const Dawn: Clock := Clock(1, 0, 0)

  /** `SEASONS[i % len(SEASONS)]`; the modulus is never negative, as in Python. */
  function SeasonAt(i: int): Season
  {
    var k := i % NUM_SEASONS;
    if k == 0 then Spring else if k == 1 then Summer else if k == 2 then Autumn else Winter
  }

  /** `get_current_season`. */
  function CurrentSeason(c: Clock): (s: Season)
    ensures s == SEASONS[c.seasonIndex % |SEASONS|]
  {
    SeasonAt(c.seasonIndex)
  }

  /** `world_part_of_day`: the index must name one of the three parts. */
  function PartOfDay(c: Clock): (p: Part)
    requires 0 <= c.partIndex < NUM_PARTS
    ensures p == PARTS_OF_DAY[c.partIndex]
  {
    if c.partIndex == 0 then Morning else if c.partIndex == 1 then Afternoon else Night
  }

  /** The season a day falls in, as a pure function of the day count. */
  function SeasonOfDay(day: int): Season
    requires day >= 1
  {
    SeasonAt((day - 1) / DAYS_PER_SEASON)
  }

  /**
   * The clock invariant: a real day, a valid part index, and a season index
   * that is exactly the number of completed seasons, modulo the season count.
   */
  predicate Consistent(c: Clock)
  {
    && c.day >= 1
    && 0 <= c.partIndex < NUM_PARTS
    && c.seasonIndex == ((c.day - 1) / DAYS_PER_SEASON) % NUM_SEASONS
  }

  /** The number of parts of day that have passed since Dawn. */
  function Elapsed(c: Clock): int
  {
    (c.day - 1) * NUM_PARTS + c.partIndex
  }

  /**
   * `advance_time`: the part index moves on and wraps to Morning after Night;
   * exactly on that wrap the day count rises, and the season index steps
   * (cycling through the four seasons) when the new day opens a season.
   */
  function AdvanceTime(c: Clock): (r: Clock)
    ensures r.partIndex < NUM_PARTS
    ensures c.partIndex >= 0 ==> r.partIndex >= 0
    ensures r.day == if c.partIndex + 1 >= NUM_PARTS then c.day + 1 else c.day
    ensures c.partIndex + 1 < NUM_PARTS ==> r == c.(partIndex := c.partIndex + 1)
    ensures c.partIndex + 1 >= NUM_PARTS ==> r.partIndex == 0
    ensures Consistent(c) ==> Consistent(r) && Elapsed(r) == Elapsed(c) + 1
  {
    var part := c.partIndex + 1;
    if part < NUM_PARTS then c.(partIndex := part)
    else
      var day := c.day + 1;
      var season :=
        if (day - 1) % DAYS_PER_SEASON == 0 then
          (if c.seasonIndex + 1 >= NUM_SEASONS then 0 else c.seasonIndex + 1)
        else c.seasonIndex;
      assert Consistent(c) ==> Consistent(Clock(day, season, 0)) by {
        if Consistent(c) { NewDayStaysConsistent(c.day, c.seasonIndex); }
      }
      Clock(day, season, 0)
  }

  /** The season index of the next day follows the stepping rule of `advance_time`. */
  lemma NewDayStaysConsistent(day: int, seasonIndex: int)
    requires day >= 1 && seasonIndex == ((day - 1) / DAYS_PER_SEASON) % NUM_SEASONS
    ensures ((day) / DAYS_PER_SEASON) % NUM_SEASONS ==
              if day % DAYS_PER_SEASON == 0 then
                (if seasonIndex + 1 >= NUM_SEASONS then 0 else seasonIndex + 1)
              else seasonIndex
  {
    var d := day - 1;
    var q := d / DAYS_PER_SEASON;
    assert d == q * DAYS_PER_SEASON + d % DAYS_PER_SEASON;
    if day % DAYS_PER_SEASON == 0 {
      assert d % DAYS_PER_SEASON == 2;
      assert day / DAYS_PER_SEASON == q + 1;
      assert q == (q / NUM_SEASONS) * NUM_SEASONS + seasonIndex;
      if seasonIndex + 1 >= NUM_SEASONS {
        assert q + 1 == (q / NUM_SEASONS + 1) * NUM_SEASONS;
      } else {
        assert q + 1 == (q / NUM_SEASONS) * NUM_SEASONS + seasonIndex + 1;
      }
    } else {
      assert day / DAYS_PER_SEASON == q;
    }
  }

  /** For a consistent clock the season is the pure function of the day count. */
  lemma SeasonFollowsDay(c: Clock)
    requires Consistent(c)
    ensures CurrentSeason(c) == SeasonOfDay(c.day)
  {
  }

  /** Advancing n times from a consistent clock moves it n parts of day forward. */
  function AdvanceTimes(c: Clock, n: nat): Clock
  {
    if n == 0 then c else AdvanceTime(AdvanceTimes(c, n - 1))
  }

  /**
   * n steps from Dawn land on the clock that n elapsed parts of day determine:
   * day n / 3 + 1, part n % 3, and the season of that day.
   */
  lemma {:induction false} AdvanceFromDawn(n: nat)
    ensures Consistent(AdvanceTimes(Dawn, n))
    ensures Elapsed(AdvanceTimes(Dawn, n)) == n
    ensures AdvanceTimes(Dawn, n).day == n / NUM_PARTS + 1
    ensures AdvanceTimes(Dawn, n).partIndex == n % NUM_PARTS
  {
    if n > 0 {
      AdvanceFromDawn(n - 1);
      var c := AdvanceTimes(Dawn, n);
      assert Elapsed(c) == n;
      assert n == (c.day - 1) * NUM_PARTS + c.partIndex;
    }
  }
}

=== FILE: grid.dfy ===
/**
 * The tile grid: terrain, resource levels and field ownership, with world
 * generation, forest regrowth, storms and the row-major tile searches.
 */
module Tiles {
  import opened Util
  import opened Catalog

  datatype Terrain = Forest | Field | Water

  /** One grid cell; `owner` is the id of the farmer who owns a field plot. */
  datatype Tile = Tile(terrain: Terrain, level: int, owner: Option<nat>)

  /** A grid position: `row` is the y index, `col` the x index. */
  datatype Pos = Pos(row: int, col: int)

  /** `grid[y][x]`: a sequence of rows. */
  type Grid = seq<seq<Tile>>

  predicate Shaped(g: Grid, width: int, height: int)
  {
    |g| == height && forall y :: 0 <= y < |g| ==> |g[y]| == width
  }

  predicate SameShape(a: Grid, b: Grid)
  {
    |a| == |b| && forall y :: 0 <= y < |a| ==> |a[y]| == |b[y]|
  }

  predicate InBounds(g: Grid, p: Pos)
  {
    0 <= p.row < |g| && 0 <= p.col < |g[p.row]|
  }

  function At(g: Grid, p: Pos): Tile
    requires InBounds(g, p)
  {
    g[p.row][p.col]
  }

  /**
   * No resource level is negative and no forest holds more than the regrowth
   * cap.
   */
  predicate TilesSound(g: Grid)
  {
    forall y, x :: 0 <= y < |g| && 0 <= x < |g[y]| ==>
      g[y][x].level >= 0 && (g[y][x].terrain == Forest ==> g[y][x].level <= FOREST_CAP)
  }

  /** Only resource levels differ: every terrain and owner is the same. */
  predicate SameLayout(a: Grid, b: Grid)
  {
    SameShape(a, b) &&
    forall y, x :: 0 <= y < |a| && 0 <= x < |a[y]| ==>
      b[y][x].terrain == a[y][x].terrain && b[y][x].owner == a[y][x].owner
  }

  /** Sets the resource level of one tile. */
  function SetLevel(g: Grid, p: Pos, level: int): (r: Grid)
    requires InBounds(g, p)
    ensures SameLayout(g, r)
    ensures At(r, p) == At(g, p).(level := level)
    ensures forall y, x :: 0 <= y < |g| && 0 <= x < |g[y]| && Pos(y, x) != p ==> r[y][x] == g[y][x]
    ensures TilesSound(g) && level >= 0 && (At(g, p).terrain == Forest ==> level <= FOREST_CAP) ==> TilesSound(r)
  {
    g[p.row := g[p.row][p.col := At(g, p).(level := level)]]
  }

  // ---------------------------------------------------------------------
  //  Generation
  // ---------------------------------------------------------------------

  /** The starting level of a randomly chosen terrain. */
  function BaseLevel(t: Terrain): int
  {
    match t
    case Forest => 5
    case Field => 1
    case Water => 0
  }

  /** The level of a farmer's plot at generation ("fertile soil"). */
  const PLOT_LEVEL: int := 5
  /** The column holding the farmers' plots. */
  const PLOT_COL: int := 2
  /** The first row holding a plot; farmer k's plot is on row k + 1. */
  const FIRST_PLOT_ROW: int := 2

  /** Whether (y, x) is one of the plots handed to the farmers. */
  predicate IsPlot(y: int, x: int, farmers: nat, height: int)
  {
    x == PLOT_COL && FIRST_PLOT_ROW <= y < Min(FIRST_PLOT_ROW + farmers, height)
  }

  /** The row-by-row pass over the chosen terrains. */
  function BaseGrid(choice: seq<seq<Terrain>>): (g: Grid)
    ensures |g| == |choice|
    ensures forall y :: 0 <= y < |g| ==> |g[y]| == |choice[y]|
    ensures forall y, x :: 0 <= y < |g| && 0 <= x < |g[y]| ==>
              g[y][x] == Tile(choice[y][x], BaseLevel(choice[y][x]), None)
  {
    seq(|choice|, y requires 0 <= y < |choice| =>
      seq(|choice[y]|, x requires 0 <= x < |choice[y]| =>
        Tile(choice[y][x], BaseLevel(choice[y][x]), None)))
  }

  /**
   * The farmland loop: rows `y` up to `stop` get a fertile field in the plot
   * column, owned by farmer `y - 1`.
   */
  function ClaimPlots(g: Grid, y: int, stop: int): (r: Grid)
    requires FIRST_PLOT_ROW <= y && stop <= |g|
    requires forall k :: y <= k < stop ==> |g[k]| > PLOT_COL
    ensures SameShape(g, r)
    ensures forall k, x :: 0 <= k < |g| && 0 <= x < |g[k]| ==>
              r[k][x] == if x == PLOT_COL && y <= k < stop then Tile(Field, PLOT_LEVEL, Some(k - 1)) else g[k][x]
    decreases stop - y
  {
    if y >= stop then g
    else ClaimPlots(g[y := g[y][PLOT_COL := Tile(Field, PLOT_LEVEL, Some(y - 1))]], y + 1, stop)
  }

  /**
   * `World._generate_tiles`, with the random terrain draws given as `choice`
   * (row by row). The plot column must exist whenever a plot is handed out.
   */
  function GenerateTiles(width: nat, height: nat, choice: seq<seq<Terrain>>, farmers: nat): (g: Grid)
    requires |choice| == height && forall y :: 0 <= y < height ==> |choice[y]| == width
    requires farmers == 0 || height <= FIRST_PLOT_ROW || width > PLOT_COL
    ensures Shaped(g, width, height)
    ensures TilesSound(g)
    ensures forall y, x :: 0 <= y < height && 0 <= x < width && IsPlot(y, x, farmers, height) ==>
              g[y][x] == Tile(Field, PLOT_LEVEL, Some(y - 1))
    ensures forall y, x :: 0 <= y < height && 0 <= x < width && !IsPlot(y, x, farmers, height) ==>
              g[y][x] == Tile(choice[y][x], BaseLevel(choice[y][x]), None)
  {
    ClaimPlots(BaseGrid(choice), FIRST_PLOT_ROW, Min(FIRST_PLOT_ROW + farmers, height))
  }

  // ---------------------------------------------------------------------
  //  Regrowth and storms
  // ---------------------------------------------------------------------

  function RegrowTile(t: Tile): Tile
  {
    if t.terrain == Forest then t.(level := Min(t.level + 1, FOREST_CAP)) else t
  }

  /**
   * The regrowth pass of `update_resources_and_events`: every forest tile
   * gains one level up to the cap; fields and water are left alone.
   */
  function Regrow(g: Grid): (r: Grid)
    ensures SameLayout(g, r)
    ensures forall y, x :: 0 <= y < |g| && 0 <= x < |g[y]| && g[y][x].terrain == Forest ==>
              r[y][x].level == Min(g[y][x].level + 1, FOREST_CAP)
    ensures forall y, x :: 0 <= y < |g| && 0 <= x < |g[y]| && g[y][x].terrain != Forest ==>
              r[y][x] == g[y][x]
    ensures TilesSound(g) ==> TilesSound(r)
  {
    seq(|g|, y requires 0 <= y < |g| =>
      seq(|g[y]|, x requires 0 <= x < |g[y]| => RegrowTile(g[y][x])))
  }

  /** `n` successive regrowth passes. */
  function RegrowTimes(g: Grid, n: nat): Grid
  {
    if n == 0 then g else Regrow(RegrowTimes(g, n - 1))
  }

  /**
   * Regrowth saturates: after n passes a forest tile that started at most at
   * the cap stands at min(level + n, cap), and nothing else has changed.
   */
  lemma {:induction false} RegrowTimesSaturates(g: Grid, n: nat)
    requires TilesSound(g)
    ensures SameLayout(g, RegrowTimes(g, n))
    ensures forall y, x :: 0 <= y < |g| && 0 <= x < |g[y]| && g[y][x].terrain == Forest ==>
              RegrowTimes(g, n)[y][x].level == Min(g[y][x].level + n, FOREST_CAP)
    ensures forall y, x :: 0 <= y < |g| && 0 <= x < |g[y]| && g[y][x].terrain != Forest ==>
              RegrowTimes(g, n)[y][x] == g[y][x]
  {
    if n > 0 {
      RegrowTimesSaturates(g, n - 1);
    }
  }

  /** How many of the storm's draws landed on `p`. */
  function HitCount(hits: seq<Pos>, p: Pos): nat
  {
    if |hits| == 0 then 0
    else (if hits[0] == p then 1 else 0) + HitCount(hits[1..], p)
  }

  /**
   * The hit loop of `_trigger_storm`: each draw in turn lowers its tile by
   * the storm reduction, clamped at 0. Only levels change.
   */
  function Storm(g: Grid, hits: seq<Pos>): (r: Grid)
    requires forall k :: 0 <= k < |hits| ==> InBounds(g, hits[k])
    ensures SameLayout(g, r)
    decreases |hits|
  {
    if |hits| == 0 then g
    else
      var p := hits[0];
      var g' := SetLevel(g, p, Max(0, At(g, p).level - STORM_RESOURCE_REDUCTION));
      assert forall k :: 0 <= k < |hits| - 1 ==> InBounds(g', hits[1..][k]) by {
        forall k | 0 <= k < |hits| - 1
          ensures InBounds(g', hits[1..][k])
        {
          var q := hits[k + 1];
          assert InBounds(g, q);
          assert |g'[q.row]| == |g[q.row]|;
        }
      }
      Storm(g', hits[1..])
  }

  /** The level a tile reaches after `k` storm hits: max(0, level - k * reduction). */
  function StruckLevel(level: int, k: nat): int
  {
    if k == 0 then level else Max(0, level - STORM_RESOURCE_REDUCTION * k)
  }

  /**
   * A tile hit k times ends at max(0, level - k * reduction), however the
   * hits interleave; tiles never hit are untouched.
   */
  lemma {:induction false} StormLevels(g: Grid, hits: seq<Pos>)
    requires forall k :: 0 <= k < |hits| ==> InBounds(g, hits[k])
    ensures forall y, x :: 0 <= y < |g| && 0 <= x < |g[y]| ==>
              Storm(g, hits)[y][x].level == StruckLevel(g[y][x].level, HitCount(hits, Pos(y, x)))
    decreases |hits|
  {
    if |hits| > 0 {
      var p := hits[0];
      var g' := SetLevel(g, p, Max(0, At(g, p).level - STORM_RESOURCE_REDUCTION));
      assert forall k :: 0 <= k < |hits| - 1 ==> InBounds(g', hits[1..][k]) by {
        forall k | 0 <= k < |hits| - 1
          ensures InBounds(g', hits[1..][k])
        {
          var q := hits[k + 1];
          assert InBounds(g, q);
          assert |g'[q.row]| == |g[q.row]|;
        }
      }
      StormLevels(g', hits[1..]);
      var r: Grid := Storm(g, hits);
      assert r == Storm(g', hits[1..]);
      forall y, x | 0 <= y < |g| && 0 <= x < |g[y]|
        ensures r[y][x].level == StruckLevel(g[y][x].level, HitCount(hits, Pos(y, x)))
      {
        var later := HitCount(hits[1..], Pos(y, x));
        if Pos(y, x) == p {
          assert HitCount(hits, p) == later + 1;
        } else {
          assert HitCount(hits, Pos(y, x)) == later;
        }
      }
    }
  }

  /** A storm keeps every level non-negative and every forest under its cap. */
  lemma StormKeepsSound(g: Grid, hits: seq<Pos>)
    requires forall k :: 0 <= k < |hits| ==> InBounds(g, hits[k])
    requires TilesSound(g)
    ensures TilesSound(Storm(g, hits))
    ensures forall y, x :: 0 <= y < |g| && 0 <= x < |g[y]| ==> Storm(g, hits)[y][x].level <= g[y][x].level
  {
    StormLevels(g, hits);
  }

  // ---------------------------------------------------------------------
  //  Searching tiles
  // ---------------------------------------------------------------------

  /** What a tile search looks for. */
  datatype Query =
    | OwnedField(id: nat)      // a field with resources owned by `id`
    | PublicField              // a field with resources and no owner
    | Stocked(terrain: Terrain) // any tile of that terrain with resources

  predicate Wanted(t: Tile, q: Query)
  {
    match q
    case OwnedField(id) => t.terrain == Field && t.level > 0 && t.owner == Some(id)
    case PublicField => t.terrain == Field && t.level > 0 && t.owner == None
    case Stocked(tr) => t.terrain == tr && t.level > 0
  }

  /** No tile of the grid matches. */
  predicate NoMatch(g: Grid, q: Query)
  {
    forall y, x :: 0 <= y < |g| && 0 <= x < |g[y]| ==> !Wanted(g[y][x], q)
  }

  /** `p` matches and no tile before it in row-major order does. */
  predicate IsFirst(g: Grid, q: Query, p: Pos)
  {
    && InBounds(g, p)
    && Wanted(At(g, p), q)
    && (forall y, x :: 0 <= y < p.row && 0 <= x < |g[y]| ==> !Wanted(g[y][x], q))
    && (forall x :: 0 <= x < p.col ==> !Wanted(g[p.row][x], q))
  }

  /** The scan of one row from column `x` on. */
  function FindInRow(row: seq<Tile>, q: Query, x: nat): (r: Option<nat>)
    requires x <= |row|
    ensures r.Some? ==> x <= r.value < |row| && Wanted(row[r.value], q)
    ensures r.Some? ==> forall x' :: x <= x' < r.value ==> !Wanted(row[x'], q)
    ensures r.None? ==> forall x' :: x <= x' < |row| ==> !Wanted(row[x'], q)
    decreases |row| - x
  {
    if x == |row| then None
    else if Wanted(row[x], q) then Some(x)
    else FindInRow(row, q, x + 1)
  }

  /** The scan of the grid from row `y` on. */
  function FindFrom(g: Grid, q: Query, y: nat): (r: Option<Pos>)
    requires y <= |g|
    ensures r.Some? ==> y <= r.value.row && InBounds(g, r.value) && Wanted(At(g, r.value), q)
    ensures r.Some? ==> forall y', x :: y <= y' < r.value.row && 0 <= x < |g[y']| ==> !Wanted(g[y'][x], q)
    ensures r.Some? ==> forall x :: 0 <= x < r.value.col ==> !Wanted(g[r.value.row][x], q)
    ensures r.None? ==> forall y', x :: y <= y' < |g| && 0 <= x < |g[y']| ==> !Wanted(g[y'][x], q)
    decreases |g| - y
  {
    if y == |g| then None
    else match FindInRow(g[y], q, 0)
      case Some(x) => Some(Pos(y, x))
      case None => FindFrom(g, q, y + 1)
  }

  /**
   * The nested `for row / for tile` scan: the first matching tile in
   * row-major order, or None exactly when no tile matches.
   */
  function FindFirst(g: Grid, q: Query): (r: Option<Pos>)
    ensures r.Some? ==> IsFirst(g, q, r.value)
    ensures r.None? <==> NoMatch(g, q)
  {
    FindFrom(g, q, 0)
  }

  /** There is only one first match, so the scan's answer is determined by `IsFirst`. */
  lemma FirstIsUnique(g: Grid, q: Query, p: Pos, p': Pos)
    requires IsFirst(g, q, p) && IsFirst(g, q, p')
    ensures p == p'
  {
  }

  /** A field stripped to level 0: no field search wants it, whoever owns it. */
  predicate IdleField(g: Grid, p: Pos)
  {
    InBounds(g, p) && At(g, p).terrain == Field && At(g, p).level == 0
  }

  /**
   * `find_owned_or_public_field`: the villager's own first field with
   * resources; failing that, the first unowned one; failing that, None.
   */
  function FindOwnedOrPublicField(g: Grid, id: nat): (r: Option<Pos>)
    ensures r.Some? ==> IsFirst(g, OwnedField(id), r.value)
                        || (NoMatch(g, OwnedField(id)) && IsFirst(g, PublicField, r.value))
    ensures r.None? <==> NoMatch(g, OwnedField(id)) && NoMatch(g, PublicField)
  {
    match FindFirst(g, OwnedField(id))
    case Some(p) => Some(p)
    case None => FindFirst(g, PublicField)
  }

  /** `find_tile_with_resources`: the first tile of the terrain with resources. */
  function FindTileWithResources(g: Grid, terrain: Terrain): (r: Option<Pos>)
    ensures r.Some? ==> IsFirst(g, Stocked(terrain), r.value)
    ensures r.None? <==> NoMatch(g, Stocked(terrain))
  {
    FindFirst(g, Stocked(terrain))
  }
}

=== FILE: market.dfy ===
/**
 * The market: fixed prices and a per-item stock counter. A purchase or sale
 * either happens completely or changes nothing.
 */
module Ledger {
  import opened Catalog
  import opened Tools
  import opened Villagers

  datatype Market = Market(stock: map<Item, int>) {
    /** `stock.get(item, 0)`. */
    function Stock(i: Item): int
    {
      if i in stock then stock[i] else 0
    }
  }

  /** The market as the simulation opens it. */
  const Opening: Market := Market(InitialMarketStock())

  /** No item's stock is negative. */
  predicate MarketSound(m: Market)
  {
    forall i: Item :: m.Stock(i) >= 0
  }

  /** The outcome of a purchase or sale: whether it happened, and both parties afterwards. */
  datatype Trade = Trade(ok: bool, market: Market, villager: Villager)

  /**
   * `Market.buy`: refused when the stock or the villager's coins fall short;
   * otherwise the coins pay exactly price * qty, the stock gives up qty, and
   * the villager receives qty new tool instances or qty more of the resource.
   */
  function Buy(m: Market, v: Villager, item: Item, qty: nat): (r: Trade)
    ensures r.ok <==> qty <= m.Stock(item) && Price(item) * qty <= v.coins
    ensures !r.ok ==> r.market == m && r.villager == v
    ensures r.ok ==> r.villager.coins == v.coins - Price(item) * qty
    ensures r.ok ==> r.market.Stock(item) == m.Stock(item) - qty >= 0
    ensures r.ok ==> Holding(r.villager, item) == Holding(v, item) + qty
    ensures r.ok && item.IsTool() ==> r.villager.tools.Get(item) == v.tools.Get(item) + Fresh(qty)
    ensures forall i: Item :: i != item ==> r.market.Stock(i) == m.Stock(i)
    ensures forall i: Item :: i != item ==> Holding(r.villager, i) == Holding(v, i)
    ensures forall t: Tool :: t != item ==> r.villager.tools.Get(t) == v.tools.Get(t)
    ensures SamePerson(r.villager, v)
    ensures Sound(v) ==> Sound(r.villager)
    ensures MarketSound(m) ==> MarketSound(r.market)
  {
    if m.Stock(item) < qty then Trade(false, m, v)
    else if v.coins < Price(item) * qty then Trade(false, m, v)
    else
      var paid := v.(coins := v.coins - Price(item) * qty);
      var m' := Market(m.stock[item := m.Stock(item) - qty]);
      if item.IsTool() then Trade(true, m', AddTool(paid, item, qty))
      else Trade(true, m', WithStockpile(paid, item, Stockpile(v, item) + qty))
  }

  /**
   * `Market.sell`: refused when the villager holds fewer than qty; otherwise
   * the holding drops by qty (for tools, the newest qty instances go), the
   * coins rise by price * qty and the stock rises by qty.
   */
  function Sell(m: Market, v: Villager, item: Item, qty: nat): (r: Trade)
    ensures r.ok <==> qty <= Holding(v, item)
    ensures !r.ok ==> r.market == m && r.villager == v
    ensures r.ok ==> r.villager.coins == v.coins + Price(item) * qty
    ensures r.ok ==> r.market.Stock(item) == m.Stock(item) + qty
    ensures r.ok ==> Holding(r.villager, item) == Holding(v, item) - qty
    ensures r.ok && item.IsTool() ==>
              r.villager.tools.Get(item) == v.tools.Get(item)[..ToolCount(v, item) - qty]
    ensures forall i: Item :: i != item ==> r.market.Stock(i) == m.Stock(i)
    ensures forall i: Item :: i != item ==> Holding(r.villager, i) == Holding(v, i)
    ensures forall t: Tool :: t != item ==> r.villager.tools.Get(t) == v.tools.Get(t)
    ensures SamePerson(r.villager, v)
    ensures Sound(v) ==> Sound(r.villager)
    ensures MarketSound(m) ==> MarketSound(r.market)
  {
    if Holding(v, item) < qty then Trade(false, m, v)
    else
      var gave := if item.IsTool() then RemoveTool(v, item, qty)
                  else WithStockpile(v, item, Stockpile(v, item) - qty);
      Trade(true, Market(m.stock[item := m.Stock(item) + qty]),
            gave.(coins := gave.coins + Price(item) * qty))
  }

  /**
   * Prices are the same in both directions, so selling back what was just
   * bought restores the villager exactly and every stock level; the stock
   * map itself is restored whenever the item was already listed.
   */
  lemma BuyThenSellRestores(m: Market, v: Villager, item: Item, qty: nat)
    requires Buy(m, v, item, qty).ok
    requires Holding(v, item) >= 0
    ensures Sell(Buy(m, v, item, qty).market, Buy(m, v, item, qty).villager, item, qty).ok
    ensures Sell(Buy(m, v, item, qty).market, Buy(m, v, item, qty).villager, item, qty).villager == v
    ensures forall i: Item ::
              Sell(Buy(m, v, item, qty).market, Buy(m, v, item, qty).villager, item, qty).market.Stock(i) == m.Stock(i)
    ensures item in m.stock ==>
              Sell(Buy(m, v, item, qty).market, Buy(m, v, item, qty).villager, item, qty).market == m
  {
    var b := Buy(m, v, item, qty);
    var s := Sell(b.market, b.villager, item, qty);
    if item.IsTool() {
      var paid := v.(coins := v.coins - Price(item) * qty);
      assert b.villager == AddTool(paid, item, qty);
      AddThenRemoveToolRestores(paid, item, qty);
      assert s.villager == paid.(coins := paid.coins + Price(item) * qty);
    } else {
      assert Holding(b.villager, item) == Holding(v, item) + qty;
      assert s.villager == v;
    }
    if item in m.stock {
      assert s.market.stock == m.stock[item := m.stock[item]];
      assert s.market.stock == m.stock;
    }
  }

  /** Holding plus market stock of every item, summed into one predicate. */
  predicate SameGoods(m: Market, v: Villager, m': Market, v': Villager)
  {
    forall i: Item :: Holding(v', i) + m'.Stock(i) == Holding(v, i) + m.Stock(i)
  }

  /**
   * A purchase moves goods and coins between the two parties without creating
   * or destroying any: holding plus market stock is unchanged for every item,
   * and the villager's wealth at market prices is unchanged.
   */
  lemma BuyConservesGoodsAndWealth(m: Market, v: Villager, item: Item, qty: nat)
    ensures SameGoods(m, v, Buy(m, v, item, qty).market, Buy(m, v, item, qty).villager)
    ensures Wealth(Buy(m, v, item, qty).villager) == Wealth(v)
  {
    var r := Buy(m, v, item, qty);
    if r.ok {
      WealthShift(v, r.villager, item, qty);
    }
  }

  /** The same conservation for a sale. */
  lemma SellConservesGoodsAndWealth(m: Market, v: Villager, item: Item, qty: nat)
    ensures SameGoods(m, v, Sell(m, v, item, qty).market, Sell(m, v, item, qty).villager)
    ensures Wealth(Sell(m, v, item, qty).villager) == Wealth(v)
  {
    var r := Sell(m, v, item, qty);
    if r.ok {
      WealthShift(v, r.villager, item, -(qty as int));
    }
  }

  /**
   * Changing one item's holding by `delta`, and nothing else but coins,
   * changes wealth by the coins' change plus `delta` at that item's price.
   */
  lemma WealthShift(v: Villager, v': Villager, item: Item, delta: int)
    requires forall i: Item :: i != item ==> Holding(v', i) == Holding(v, i)
    requires Holding(v', item) == Holding(v, item) + delta
    ensures Wealth(v') == Wealth(v) + (v'.coins - v.coins) + Price(item) * delta
  {
    WealthByItem(v);
    WealthByItem(v');
    match item
    case Food =>
    case Wood =>
    case Axe =>
    case Bow =>
    case Hoe =>
  }

  /** Wealth written item by item through `Holding`. */
  lemma WealthByItem(v: Villager)
    ensures Wealth(v) == v.coins + Price(Food) * Holding(v, Food) + Price(Wood) * Holding(v, Wood)
              + Price(Axe) * Holding(v, Axe) + Price(Bow) * Holding(v, Bow) + Price(Hoe) * Holding(v, Hoe)
  {
  }

  /** Scenario: stock 5 wood at price 2, 10 coins, buy 3: stock 2, coins 4. */
  lemma BuyWoodExample(v: Villager)
    requires v.coins == 10 && v.wood == 0
    ensures var r := Buy(Market(map[Wood := 5]), v, Wood, 3);
            r.ok && r.market.Stock(Wood) == 2 && r.villager.coins == 4 && r.villager.wood == 3
  {
  }
}

=== FILE: needs.dfy ===
/**
 * The villager's own steps around the role action: eating, essential
 * purchases, selling surplus, burning wood on winter nights, and the
 * per-step decay of hunger and rest with its streak penalties.
 */
module Needs {
  import opened Util
  import opened Catalog
  import opened Tools
  import opened Villagers
  import opened Ledger

  /** `eat_if_needed`: one food for two hunger, only when hungry and food is at hand. */
  function EatIfNeeded(v: Villager): (r: Villager)
    ensures v.hunger < HUNGER_CRITICAL_THRESHOLD && v.food > 0 ==>
              r.food == v.food - 1 && r.hunger == v.hunger + EAT_GAIN
    ensures !(v.hunger < HUNGER_CRITICAL_THRESHOLD && v.food > 0) ==> r == v
    ensures r == v.(food := r.food, hunger := r.hunger)
    ensures Sound(v) ==> Sound(r)
  {
    if v.hunger < HUNGER_CRITICAL_THRESHOLD && v.food > 0 then
      v.(food := v.food - 1, hunger := v.hunger + EAT_GAIN)
    else v
  }

  /** Scenario: hunger 4 with 2 food becomes hunger 6 with 1 food. */
  lemma EatExample(v: Villager)
    requires v.hunger == 4.0 && v.food == 2
    ensures EatIfNeeded(v).hunger == 6.0 && EatIfNeeded(v).food == 1
  {
  }

  /**
   * `buy_essential_items`: in winter a villager without wood buys one, if it
   * can pay and the market has any. The guard matches the market's own
   * checks, so an attempted purchase always goes through.
   */
  function BuyEssentialItems(m: Market, v: Villager, winter: bool): (r: Trade)
    ensures r.ok <==> winter && v.wood < 1 && v.coins >= Price(Wood) && m.Stock(Wood) > 0
    ensures !r.ok ==> r.market == m && r.villager == v
    ensures r.ok ==> r.villager.wood == v.wood + 1 && r.villager.coins == v.coins - Price(Wood)
                     && r.market.Stock(Wood) == m.Stock(Wood) - 1
    ensures r.villager == v.(wood := r.villager.wood, coins := r.villager.coins)
    ensures forall i: Item :: i != Wood ==> r.market.Stock(i) == m.Stock(i)
    ensures Sound(v) ==> Sound(r.villager)
    ensures MarketSound(m) ==> MarketSound(r.market)
  {
    if winter && v.wood < 1 then
      if v.coins >= Price(Wood) && m.Stock(Wood) > 0 then Buy(m, v, Wood, 1)
      else Trade(false, m, v)
    else Trade(false, m, v)
  }

  /**
   * `buy_primary_tool`: a farmer, hunter or logger with no instance of its
   * tool tries to buy one; the blacksmith never buys.
   */
  function BuyPrimaryTool(m: Market, v: Villager): (r: Trade)
    ensures r.ok <==> PrimaryTool(v.role).Some?
                      && ToolCount(v, PrimaryTool(v.role).value) == 0
                      && m.Stock(PrimaryTool(v.role).value) >= 1
                      && v.coins >= Price(PrimaryTool(v.role).value)
    ensures !r.ok ==> r.market == m && r.villager == v
    ensures r.ok ==> var t := PrimaryTool(v.role).value;
                     && r.villager.tools == v.tools.With(t, Fresh(1))
                     && r.villager.coins == v.coins - Price(t)
                     && r.market.Stock(t) == m.Stock(t) - 1
                     && (forall i: Item :: i != t ==> r.market.Stock(i) == m.Stock(i))
    ensures r.villager == v.(coins := r.villager.coins, tools := r.villager.tools)
    ensures Sound(v) ==> Sound(r.villager)
    ensures MarketSound(m) ==> MarketSound(r.market)
  {
    match PrimaryTool(v.role)
    case None => Trade(false, m, v)
    case Some(t) =>
      if ToolCount(v, t) < 1 then
        var r := Buy(m, v, t, 1);
        assert r.ok ==> r.villager.tools.Get(t) == Fresh(1);
        assert r.ok ==> r.villager.tools == v.tools.With(t, Fresh(1));
        r
      else Trade(false, m, v)
  }

  /**
   * The opening of `Villager.update`: eat if needed, buy winter wood, then buy
   * the primary tool. Only eating touches the villager's needs.
   */
  function Provision(m: Market, v: Villager, winter: bool): (r: Trade)
    ensures r.villager.hunger == EatIfNeeded(v).hunger
    ensures r.villager.id == v.id && r.villager.role == v.role && r.villager.rest == v.rest
    ensures r.villager.health == v.health && r.villager.happiness == v.happiness
    ensures r.villager.hungerStreak == v.hungerStreak && r.villager.restStreak == v.restStreak
    ensures Sound(v) ==> Sound(r.villager)
    ensures MarketSound(m) ==> MarketSound(r.market)
  {
    var fed := EatIfNeeded(v);
    var essentials := BuyEssentialItems(m, fed, winter);
    BuyPrimaryTool(essentials.market, essentials.villager)
  }

  /**
   * Both purchases are at market price: after eating, provisioning leaves the
   * villager's wealth and every item's holding plus stock as they were.
   */
  lemma ProvisionConserves(m: Market, v: Villager, winter: bool)
    ensures var r := Provision(m, v, winter);
            && Wealth(r.villager) == Wealth(EatIfNeeded(v))
            && SameGoods(m, EatIfNeeded(v), r.market, r.villager)
  {
    var fed := EatIfNeeded(v);
    var essentials := BuyEssentialItems(m, fed, winter);
    if essentials.ok {
      BuyConservesGoodsAndWealth(m, fed, Wood, 1);
    }
    var r := BuyPrimaryTool(essentials.market, essentials.villager);
    if r.ok {
      BuyConservesGoodsAndWealth(essentials.market, essentials.villager, PrimaryTool(v.role).value, 1);
    }
  }

  /**
   * `sell_surplus`: food above 5 and wood above max(5, 1 in winter) are sold
   * off. Every such sale succeeds because the villager holds the surplus, and
   * nothing at or below a threshold is sold.
   */
  function SellSurplus(m: Market, v: Villager, winter: bool): (r: Trade)
    ensures r.villager.food == Min(v.food, SURPLUS_FOOD)
    ensures r.villager.wood == Min(v.wood, Max(SURPLUS_WOOD, if winter then 1 else 0))
    ensures r.villager.coins == v.coins + Price(Food) * (v.food - r.villager.food)
                                        + Price(Wood) * (v.wood - r.villager.wood)
    ensures r.market.Stock(Food) == m.Stock(Food) + (v.food - r.villager.food)
    ensures r.market.Stock(Wood) == m.Stock(Wood) + (v.wood - r.villager.wood)
    ensures forall i: Item :: i.IsTool() ==> r.market.Stock(i) == m.Stock(i)
    ensures r.ok <==> v.food > SURPLUS_FOOD || v.wood > Max(SURPLUS_WOOD, if winter then 1 else 0)
    ensures r.villager == v.(food := r.villager.food, wood := r.villager.wood, coins := r.villager.coins)
    ensures Sound(v) ==> Sound(r.villager)
    ensures MarketSound(m) ==> MarketSound(r.market)
  {
    var afterFood :=
      if v.food > SURPLUS_FOOD then Sell(m, v, Food, v.food - SURPLUS_FOOD) else Trade(false, m, v);
    var keepWood := Max(SURPLUS_WOOD, if winter then 1 else 0);
    var v1 := afterFood.villager;
    var afterWood :=
      if v1.wood > keepWood then Sell(afterFood.market, v1, Wood, v1.wood - keepWood)
      else Trade(false, afterFood.market, v1);
    Trade(afterFood.ok || afterWood.ok, afterWood.market, afterWood.villager)
  }

  /**
   * Liquidating surplus only swaps goods for their price: the villager's
   * wealth at market prices and every item's holding-plus-stock total are
   * unchanged.
   */
  lemma SellSurplusConserves(m: Market, v: Villager, winter: bool)
    ensures Wealth(SellSurplus(m, v, winter).villager) == Wealth(v)
    ensures SameGoods(m, v, SellSurplus(m, v, winter).market, SellSurplus(m, v, winter).villager)
  {
    var r := SellSurplus(m, v, winter);
    assert r.villager.tools == v.tools;
    WealthByItem(v);
    WealthByItem(r.villager);
  }

  /**
   * `consume_wood_at_night`: a winter night burns one wood; without it the
   * villager suffers the cold, losing one health and one happiness, floored
   * at 0.
   */
  function ConsumeWoodAtNight(v: Villager): (r: Villager)
    ensures v.wood >= WINTER_WOOD_CONSUMPTION ==> r == v.(wood := v.wood - WINTER_WOOD_CONSUMPTION)
    ensures v.wood < WINTER_WOOD_CONSUMPTION ==>
              r == v.(health := Max(0, v.health - COLD_PENALTY), happiness := Max(0, v.happiness - COLD_PENALTY))
    ensures r.health <= v.health || r.health == 0
    ensures Sound(v) ==> Sound(r)
  {
    if v.wood >= WINTER_WOOD_CONSUMPTION then v.(wood := v.wood - WINTER_WOOD_CONSUMPTION)
    else v.(health := Max(0, v.health - COLD_PENALTY), happiness := Max(0, v.happiness - COLD_PENALTY))
  }

  /** Python's `max(0, x)` on the real-valued needs. */
  function FloorZero(x: real): real
  {
    if x < 0.0 then 0.0 else x
  }

  /** How many of the two streak penalties fire for streak values `h` and `s`. */
  function PenaltyCount(h: nat, s: nat): nat
  {
    (if h > 1 then 1 else 0) + (if s > 1 then 1 else 0)
  }

  /**
   * `update_needs_and_penalties`: hunger and rest lose a third of their daily
   * amount, floored at 0. Each streak counts the consecutive steps its need
   * ends below 3 and resets otherwise. Every streak above 1 costs one health
   * and one happiness; both can fire in one step, and neither status goes
   * below 0.
   */
  function UpdateNeedsAndPenalties(v: Villager): (r: Villager)
    ensures r.hunger == FloorZero(v.hunger - HUNGER_DECREMENT_PER_DAY / 3.0)
    ensures r.rest == FloorZero(v.rest - REST_DECREMENT_PER_DAY / 3.0)
    ensures r.hungerStreak == if r.hunger < HUNGER_LOW_PENALTY_THRESHOLD then v.hungerStreak + 1 else 0
    ensures r.restStreak == if r.rest < REST_LOW_PENALTY_THRESHOLD then v.restStreak + 1 else 0
    ensures var n := PenaltyCount(r.hungerStreak, r.restStreak);
            r.health == if n == 0 then v.health else Max(0, v.health - n)
    ensures var n := PenaltyCount(r.hungerStreak, r.restStreak);
            r.happiness == if n == 0 then v.happiness else Max(0, v.happiness - n)
    ensures r == v.(hunger := r.hunger, rest := r.rest, hungerStreak := r.hungerStreak,
                    restStreak := r.restStreak, health := r.health, happiness := r.happiness)
    ensures Sound(v) ==> Sound(r)
  {
    var hunger := FloorZero(v.hunger - HUNGER_DECREMENT_PER_DAY / 3.0);
    var rest := FloorZero(v.rest - REST_DECREMENT_PER_DAY / 3.0);
    var hs := if hunger < HUNGER_LOW_PENALTY_THRESHOLD then v.hungerStreak + 1 else 0;
    var rs := if rest < REST_LOW_PENALTY_THRESHOLD then v.restStreak + 1 else 0;
    var health1 := if hs > 1 then Max(0, v.health - HEALTH_PENALTY_FOR_LOW_NEEDS) else v.health;
    var happiness1 := if hs > 1 then Max(0, v.happiness - HAPPINESS_PENALTY_FOR_LOW_NEEDS) else v.happiness;
    var health2 := if rs > 1 then Max(0, health1 - HEALTH_PENALTY_FOR_LOW_NEEDS) else health1;
    var happiness2 := if rs > 1 then Max(0, happiness1 - HAPPINESS_PENALTY_FOR_LOW_NEEDS) else happiness1;
    v.(hunger := hunger, rest := rest, hungerStreak := hs, restStreak := rs,
       health := health2, happiness := happiness2)
  }

  /**
   * A penalty is due exactly when a need has ended two or more steps in a row
   * below its threshold: the first low step only starts the streak.
   */
  lemma PenaltyNeedsTwoLowSteps(v: Villager)
    requires v.health >= 1
    ensures UpdateNeedsAndPenalties(v).health < v.health <==>
              (UpdateNeedsAndPenalties(v).hunger < HUNGER_LOW_PENALTY_THRESHOLD && v.hungerStreak >= 1)
              || (UpdateNeedsAndPenalties(v).rest < REST_LOW_PENALTY_THRESHOLD && v.restStreak >= 1)
  {
  }

  /** Scenario: both streaks running, so one step costs two health, and happiness 1 falls to the floor at 0. */
  lemma BothPenaltiesFire(v: Villager)
    requires v.hunger == 1.0 && v.rest == 1.0 && v.hungerStreak == 3 && v.restStreak == 1
    requires v.health == 5 && v.happiness == 1
    ensures UpdateNeedsAndPenalties(v).health == 3
    ensures UpdateNeedsAndPenalties(v).happiness == 0
  {
  }

  /**
   * Over the three parts of a day a need that stays positive loses exactly
   * its per-day amount: the decrement is that amount apportioned in thirds.
   */
  lemma {:induction false} DailyDecay(v: Villager)
    requires v.hunger >= HUNGER_DECREMENT_PER_DAY && v.rest >= REST_DECREMENT_PER_DAY
    ensures UpdateNeedsAndPenalties(UpdateNeedsAndPenalties(UpdateNeedsAndPenalties(v))).hunger
              == v.hunger - HUNGER_DECREMENT_PER_DAY
    ensures UpdateNeedsAndPenalties(UpdateNeedsAndPenalties(UpdateNeedsAndPenalties(v))).rest
              == v.rest - REST_DECREMENT_PER_DAY
  {
    var a := UpdateNeedsAndPenalties(v);
    var b := UpdateNeedsAndPenalties(a);
    assert a.hunger == v.hunger - 1.0 / 3.0;
    assert b.hunger == v.hunger - 2.0 / 3.0;
  }
}

=== FILE: simulation.dfy ===
/**
 * The scheduler: one villager's step, one tick over all villagers in spawn
 * order followed by the world update and the clock, villager spawning, and
 * the bounded run loop.
 */
module Simulation {
  import opened Util
  import opened Catalog
  import opened Villagers
  import opened Ledger
  import opened Tiles
  import opened Calendar
  import opened Worlds
  import opened Actions
  import opened Needs

  /** The world and the villager roster, in spawn order. */
  datatype Village = Village(world: World, villagers: seq<Villager>)

  predicate AllSound(vs: seq<Villager>)
  {
    forall i :: 0 <= i < |vs| ==> Sound(vs[i])
  }

  /** The roster keeps its length, order, ids and roles: nobody joins or leaves. */
  predicate SameRoster(a: seq<Villager>, b: seq<Villager>)
  {
    |a| == |b| && forall i :: 0 <= i < |a| ==> b[i].id == a[i].id && b[i].role == a[i].role
  }

  /**
   * The close of `Villager.update`: sell the surplus, burn wood on a winter
   * night, then let the needs decay.
   */
  function WindDown(m: Market, v: Villager, winter: bool, night: bool): (r: Trade)
    ensures r.villager.id == v.id && r.villager.role == v.role
    ensures r.villager.food <= SURPLUS_FOOD && r.villager.wood <= SURPLUS_WOOD
    ensures MarketSound(m) ==> MarketSound(r.market)
    ensures Sound(v) ==> Sound(r.villager)
    ensures Sound(v) ==> r.villager.health <= v.health && r.villager.happiness <= v.happiness
  {
    var sold := SellSurplus(m, v, winter);
    var warmed := if night && winter then ConsumeWoodAtNight(sold.villager) else sold.villager;
    Trade(sold.ok, sold.market, UpdateNeedsAndPenalties(warmed))
  }

  /**
   * `Villager.update`: eat, buy winter wood, buy the primary tool, act on
   * Morning and Afternoon, sell surplus, burn wood on winter nights, then let
   * the needs decay. A sound villager stays sound, never gains health or
   * happiness, and ends the step with at most 5 food and 5 wood.
   */
  function UpdateVillager(w: World, v: Villager): (r: Step)
    requires 0 <= w.clock.partIndex < NUM_PARTS
    ensures SameFrame(w, r.world)
    ensures r.villager.id == v.id && r.villager.role == v.role
    ensures r.villager.food <= SURPLUS_FOOD && r.villager.wood <= SURPLUS_WOOD
    ensures PartOfDay(w.clock) == Night ==> r.world.grid == w.grid
    ensures WorldSound(w) ==> WorldSound(r.world)
    ensures Sound(v) ==> Sound(r.villager)
    ensures Sound(v) ==> r.villager.health <= v.health && r.villager.happiness <= v.happiness
    ensures var pre := Provision(w.market, v, IsWinter(w));
            var acted := Act(w.(market := pre.market), pre.villager);
            && r.world.grid == acted.world.grid
            && r.villager == WindDown(acted.world.market, acted.villager, IsWinter(w), PartOfDay(w.clock) == Night).villager
  {
    var winter := IsWinter(w);
    var equipped := Provision(w.market, v, winter);
    var acted := Act(w.(market := equipped.market), equipped.villager);
    var closed := WindDown(acted.world.market, acted.villager, winter, PartOfDay(w.clock) == Night);
    Step(acted.world.(market := closed.market), closed.villager)
  }

  /** The role action happens on Morning and Afternoon only. */
  function Act(w: World, v: Villager): (r: Step)
    requires 0 <= w.clock.partIndex < NUM_PARTS
    ensures SameFrame(w, r.world) && SamePerson(v, r.villager)
    ensures PartOfDay(w.clock) == Night ==> r == Step(w, v)
    ensures PartOfDay(w.clock) != Night ==> r == DoRoleAction(w, v)
    ensures WorldSound(w) ==> WorldSound(r.world)
    ensures Sound(v) ==> Sound(r.villager)
  {
    if PartOfDay(w.clock) in {Morning, Afternoon} then DoRoleAction(w, v) else Step(w, v)
  }

  /** Prepending one villager on each side keeps two rosters the same. */
  lemma RosterCons(a: Villager, rest: seq<Villager>, b: Villager, rest': seq<Villager>)
    requires a.id == b.id && a.role == b.role && SameRoster(rest, rest')
    ensures SameRoster([a] + rest, [b] + rest')
  {
    var s, s' := [a] + rest, [b] + rest';
    forall i | 1 <= i < |s|
      ensures s'[i].id == s[i].id && s'[i].role == s[i].role
    {
      assert s[i] == rest[i - 1] && s'[i] == rest'[i - 1];
    }
  }

  /** Every villager of `after` is sound and no healthier than its slot in `before`. */
  predicate SoundAndNoHealthier(before: seq<Villager>, after: seq<Villager>)
    requires |before| == |after|
  {
    forall i :: 0 <= i < |after| ==> Sound(after[i]) && after[i].health <= before[i].health
  }

  /**
   * The inner loop of `run`: every villager updates in roster order, each
   * seeing the world the previous one left behind.
   */
  function UpdateAll(w: World, vs: seq<Villager>): (r: Village)
    requires 0 <= w.clock.partIndex < NUM_PARTS
    ensures SameFrame(w, r.world)
    ensures SameRoster(vs, r.villagers)
    ensures WorldSound(w) ==> WorldSound(r.world)
    ensures |vs| == 0 ==> r.world == w
    ensures |vs| > 0 ==> r.villagers[0] == UpdateVillager(w, vs[0]).villager
    decreases |vs|
  {
    if |vs| == 0 then Village(w, vs)
    else
      var first := UpdateVillager(w, vs[0]);
      var rest := UpdateAll(first.world, vs[1..]);
      RosterCons(vs[0], vs[1..], first.villager, rest.villagers);
      assert [vs[0]] + vs[1..] == vs;
      SameFrameTrans(w, first.world, rest.world);
      Village(rest.world, [first.villager] + rest.villagers)
  }

  /**
   * Sound villagers stay sound through a whole pass of updates, and none of
   * them gains health on the way.
   */
  lemma UpdateAllKeepsVillagersSound(w: World, vs: seq<Villager>)
    requires 0 <= w.clock.partIndex < NUM_PARTS
    requires AllSound(vs)
    ensures AllSound(UpdateAll(w, vs).villagers)
    ensures forall i :: 0 <= i < |vs| ==> UpdateAll(w, vs).villagers[i].health <= vs[i].health
  {
    PassKeepsSound(w, vs);
  }

  /** The induction behind `UpdateAllKeepsVillagersSound`, one villager at a time. */
  lemma {:induction false} PassKeepsSound(w: World, vs: seq<Villager>)
    requires 0 <= w.clock.partIndex < NUM_PARTS
    requires AllSound(vs)
    ensures |UpdateAll(w, vs).villagers| == |vs|
    ensures SoundAndNoHealthier(vs, UpdateAll(w, vs).villagers)
    decreases |vs|
  {
    if |vs| > 0 {
      var first := UpdateVillager(w, vs[0]);
      var tail := vs[1..];
      var rest := UpdateAll(first.world, tail).villagers;
      assert AllSound(tail) by {
        forall i | 0 <= i < |tail| ensures Sound(tail[i]) { assert tail[i] == vs[i + 1]; }
      }
      PassKeepsSound(first.world, tail);
      var out := UpdateAll(w, vs).villagers;
      assert out == [first.villager] + rest;
      forall i | 0 <= i < |out|
        ensures Sound(out[i]) && out[i].health <= vs[i].health
      {
        if i > 0 {
          assert out[i] == rest[i - 1] && vs[i] == tail[i - 1];
        }
      }
    }
  }

  /** A villager's step lifts no field from level 0: only its role action touches the grid. */
  lemma UpdateVillagerKeepsIdleField(w: World, v: Villager, p: Pos)
    requires 0 <= w.clock.partIndex < NUM_PARTS
    requires IdleField(w.grid, p)
    ensures IdleField(UpdateVillager(w, v).world.grid, p)
  {
    var equipped := Provision(w.market, v, IsWinter(w));
    if PartOfDay(w.clock) in {Morning, Afternoon} {
      RoleActionKeepsIdleField(w.(market := equipped.market), equipped.villager, p);
    }
  }

  /** A whole pass of villager updates lifts no field from level 0. */
  lemma {:induction false} UpdateAllKeepsIdleField(w: World, vs: seq<Villager>, p: Pos)
    requires 0 <= w.clock.partIndex < NUM_PARTS
    requires IdleField(w.grid, p)
    ensures IdleField(UpdateAll(w, vs).world.grid, p)
    decreases |vs|
  {
    if |vs| > 0 {
      var first := UpdateVillager(w, vs[0]);
      UpdateVillagerKeepsIdleField(w, vs[0], p);
      UpdateAllKeepsIdleField(first.world, vs[1..], p);
    }
  }

  /**
   * One pass of the `run` loop: all villagers step, then the world's
   * resources and events, then the clock moves one part of day forward.
   */
  function Tick(s: Village, weather: Weather): (r: Village)
    requires WorldSound(s.world)
    requires ValidWeather(s.world, weather)
    ensures WorldSound(r.world)
    ensures r.world.width == s.world.width && r.world.height == s.world.height
    ensures r.world.clock == AdvanceTime(s.world.clock)
    ensures Elapsed(r.world.clock) == Elapsed(s.world.clock) + 1
    ensures SameRoster(s.villagers, r.villagers)
    ensures AllSound(s.villagers) ==> AllSound(r.villagers)
    ensures var acted := UpdateAll(s.world, s.villagers);
            && r.villagers == acted.villagers
            && r.world == UpdateResourcesAndEvents(acted.world, weather).(clock := AdvanceTime(s.world.clock))
  {
    var acted := UpdateAll(s.world, s.villagers);
    assert AllSound(s.villagers) ==> AllSound(acted.villagers) by {
      if AllSound(s.villagers) { UpdateAllKeepsVillagersSound(s.world, s.villagers); }
    }
    var updated := UpdateResourcesAndEvents(acted.world, weather);
    Village(updated.(clock := AdvanceTime(updated.clock)), acted.villagers)
  }

  /**
   * A field at level 0 stays at level 0 through a whole tick. With
   * `HarvestedFieldStaysIdle` this means a harvested field is never farmed
   * again.
   */
  lemma TickKeepsIdleField(s: Village, weather: Weather, p: Pos)
    requires WorldSound(s.world)
    requires ValidWeather(s.world, weather)
    requires IdleField(s.world.grid, p)
    ensures IdleField(Tick(s, weather).world.grid, p)
  {
    var acted := UpdateAll(s.world, s.villagers);
    UpdateAllKeepsIdleField(s.world, s.villagers, p);
    UpdateKeepsIdleField(acted.world, weather, p);
  }

  /** The role of spawn slot `i`: farmers first, then hunters, loggers, blacksmiths. */
  function RoleOfSlot(i: nat, farmers: nat, hunters: nat, loggers: nat): Role
  {
    if i < farmers then Farmer
    else if i < farmers + hunters then Hunter
    else if i < farmers + hunters + loggers then Logger
    else Blacksmith
  }

  /** `_spawn_villagers`: ids 1..N in order, grouped by role. */
  method SpawnVillagers(farmers: nat, hunters: nat, loggers: nat, smiths: nat) returns (vs: seq<Villager>)
    ensures |vs| == farmers + hunters + loggers + smiths
    ensures forall i :: 0 <= i < |vs| ==> vs[i] == NewVillager(i + 1, RoleOfSlot(i, farmers, hunters, loggers))
  {
    vs := [];
    var id: nat := 1;
    var n := 0;
    while n < farmers
      invariant n <= farmers && |vs| == n && id == |vs| + 1
      invariant forall i :: 0 <= i < |vs| ==> vs[i] == NewVillager(i + 1, RoleOfSlot(i, farmers, hunters, loggers))
    {
      vs := vs + [NewVillager(id, Farmer)];
      id := id + 1;
      n := n + 1;
    }
    n := 0;
    while n < hunters
      invariant n <= hunters && |vs| == farmers + n && id == |vs| + 1
      invariant forall i :: 0 <= i < |vs| ==> vs[i] == NewVillager(i + 1, RoleOfSlot(i, farmers, hunters, loggers))
    {
      vs := vs + [NewVillager(id, Hunter)];
      id := id + 1;
      n := n + 1;
    }
    n := 0;
    while n < loggers
      invariant n <= loggers && |vs| == farmers + hunters + n && id == |vs| + 1
      invariant forall i :: 0 <= i < |vs| ==> vs[i] == NewVillager(i + 1, RoleOfSlot(i, farmers, hunters, loggers))
    {
      vs := vs + [NewVillager(id, Logger)];
      id := id + 1;
      n := n + 1;
    }
    n := 0;
    while n < smiths
      invariant n <= smiths && |vs| == farmers + hunters + loggers + n && id == |vs| + 1
      invariant forall i :: 0 <= i < |vs| ==> vs[i] == NewVillager(i + 1, RoleOfSlot(i, farmers, hunters, loggers))
    {
      vs := vs + [NewVillager(id, Blacksmith)];
      id := id + 1;
      n := n + 1;
    }
  }

  /**
   * `Simulation.run`, loop only: while the day count has not passed
   * `totalDays`, tick once, using the storm roll drawn for that day. The loop
   * makes exactly one tick per remaining part of day — from a new world,
   * `totalDays * 3` ticks — ends on the Morning after the last day, and keeps
   * every villager on the roster and every invariant intact.
   */
  method Run(s0: Village, storms: seq<Weather>, totalDays: nat) returns (s: Village, ticks: nat)
    requires WorldSound(s0.world)
    requires |storms| >= totalDays
    requires forall d :: 0 <= d < |storms| ==> ValidWeather(s0.world, storms[d])
    ensures ticks == if s0.world.clock.day <= totalDays
                     then (totalDays + 1 - s0.world.clock.day) * NUM_PARTS - s0.world.clock.partIndex
                     else 0
    ensures s0.world.clock == Dawn ==> ticks == totalDays * NUM_PARTS
    ensures s0.world.clock.day <= totalDays ==> s.world.clock.day == totalDays + 1 && s.world.clock.partIndex == 0
    ensures WorldSound(s.world)
    ensures SameRoster(s0.villagers, s.villagers)
    ensures AllSound(s0.villagers) ==> AllSound(s.villagers)
    ensures forall p :: IdleField(s0.world.grid, p) ==> IdleField(s.world.grid, p)
  {
    s := s0;
    ticks := 0;
    while s.world.clock.day <= totalDays
      invariant WorldSound(s.world)
      invariant s.world.width == s0.world.width && s.world.height == s0.world.height
      invariant ticks == Elapsed(s.world.clock) - Elapsed(s0.world.clock)
      invariant s0.world.clock.day <= totalDays ==>
                  s.world.clock.day <= totalDays + 1
                  && (s.world.clock.day == totalDays + 1 ==> s.world.clock.partIndex == 0)
      invariant s0.world.clock.day > totalDays ==> s == s0
      invariant SameRoster(s0.villagers, s.villagers)
      invariant AllSound(s0.villagers) ==> AllSound(s.villagers)
      invariant forall p :: IdleField(s0.world.grid, p) ==> IdleField(s.world.grid, p)
      decreases totalDays + 1 - s.world.clock.day, NUM_PARTS - s.world.clock.partIndex
    {
      var weather := storms[s.world.clock.day - 1];
      assert ValidWeather(s.world, weather);
      forall p | IdleField(s.world.grid, p)
        ensures IdleField(Tick(s, weather).world.grid, p)
      {
        TickKeepsIdleField(s, weather, p);
      }
      s := Tick(s, weather);
      ticks := ticks + 1;
    }
  }

  /** Farmer k's plot is the first owned field the farmer finds in a new world. */
  lemma FarmerFindsOwnPlot(width: nat, height: nat, choice: seq<seq<Terrain>>, farmers: nat, k: nat)
    requires |choice| == height && forall y :: 0 <= y < height ==> |choice[y]| == width
    requires farmers == 0 || height <= FIRST_PLOT_ROW || width > PLOT_COL
    requires 1 <= k <= farmers && k + 1 < height
    ensures FindOwnedOrPublicField(GenerateTiles(width, height, choice, farmers), k)
              == Some(Pos(k + 1, PLOT_COL))
  {
    var g := GenerateTiles(width, height, choice, farmers);
    var p := Pos(k + 1, PLOT_COL);
    assert IsPlot(k + 1, PLOT_COL, farmers, height);
    assert IsFirst(g, OwnedField(k), p);
    var r := FindFirst(g, OwnedField(k));
    FirstIsUnique(g, OwnedField(k), r.value, p);
  }

  /**
   * `Simulation(CONFIG).run()` on a 10 x 10 world with one villager per role:
   * 36 days of three parts each, 108 ticks, the farmer owning the plot at
   * row 2, column 2, and all four villagers still on the roster at the end.
   */
  method Simulate(choice: seq<seq<Terrain>>, storms: seq<Weather>) returns (s: Village, ticks: nat)
    requires |choice| == GRID_HEIGHT && forall y :: 0 <= y < GRID_HEIGHT ==> |choice[y]| == GRID_WIDTH
    requires |storms| >= TOTAL_DAYS_TO_RUN
    requires forall d :: 0 <= d < |storms| ==>
               ValidWeather(NewWorld(GRID_WIDTH, GRID_HEIGHT, choice, NUM_FARMERS), storms[d])
    ensures ticks == TOTAL_DAYS_TO_RUN * NUM_PARTS
    ensures |s.villagers| == 4
    ensures forall i :: 0 <= i < 4 ==> s.villagers[i].id == i + 1 && Sound(s.villagers[i])
    ensures s.villagers[0].role == Farmer && s.villagers[1].role == Hunter
    ensures s.villagers[2].role == Logger && s.villagers[3].role == Blacksmith
    ensures WorldSound(s.world)
  {
    var w := NewWorld(GRID_WIDTH, GRID_HEIGHT, choice, NUM_FARMERS);
    var vs := SpawnVillagers(NUM_FARMERS, NUM_HUNTERS, NUM_LOGGERS, NUM_BLACKSMITHS);
    forall i | 0 <= i < |vs|
      ensures Sound(vs[i])
    {
      NewVillagerIsSound(i + 1, RoleOfSlot(i, NUM_FARMERS, NUM_HUNTERS, NUM_LOGGERS));
    }
    s, ticks := Run(Village(w, vs), storms, TOTAL_DAYS_TO_RUN);
  }
}

=== FILE: tools.dfy ===
/**
 * Tool instances. Each tool kind is a list of durability counters: new
 * instances are appended at the end, selling pops the newest (the end), and
 * wear always hits the oldest (the front).
 */
module Tools {
  import opened Util
  import opened Catalog

  /** A block of `qty` brand-new instances. */
  function Fresh(qty: nat): (r: seq<int>)
    ensures |r| == qty
  {
    seq(qty, _ => INITIAL_TOOL_DURABILITY)
  }

  /** Every instance still in a list is usable and no better than new. */
  predicate Usable(s: seq<int>)
  {
    forall i :: 0 <= i < |s| ==> 0 < s[i] <= INITIAL_TOOL_DURABILITY
  }

  /** The durability left in a list, summed over its instances. */
  function Remaining(s: seq<int>): int
  {
    if |s| == 0 then 0 else s[0] + Remaining(s[1..])
  }

  /** `add_tool`: one append of a fresh instance per loop turn. */
  function AddInstances(s: seq<int>, qty: nat): (r: seq<int>)
    ensures r == s + Fresh(qty)
    decreases qty
  {
    if qty == 0 then
      assert s + Fresh(0) == s;
      s
    else
      assert [INITIAL_TOOL_DURABILITY] + Fresh(qty - 1) == Fresh(qty);
      assert s + [INITIAL_TOOL_DURABILITY] + Fresh(qty - 1) == s + Fresh(qty);
      AddInstances(s + [INITIAL_TOOL_DURABILITY], qty - 1)
  }

  /** `remove_tool`: per loop turn, pop the newest instance if there is one. */
  function RemoveNewest(s: seq<int>, qty: nat): (r: seq<int>)
    ensures r == s[..|s| - Min(qty, |s|)]
    decreases qty
  {
    if qty == 0 then s
    else RemoveNewest(if |s| > 0 then s[..|s| - 1] else s, qty - 1)
  }

  /**
   * `degrade_tool`: the oldest instance loses one unit and is dropped once it
   * reaches zero or below; an empty list is left alone.
   */
  function DegradeOldest(s: seq<int>): (r: seq<int>)
    ensures |s| == 0 ==> r == s
    ensures |s| > 0 ==> (|r| == |s| - 1 <==> s[0] <= 1)
    ensures |s| > 0 && s[0] > 1 ==> |r| == |s| && r[0] == s[0] - 1
    ensures |s| > 0 ==> r[|r| - (|s| - 1)..] == s[1..]
  {
    if |s| == 0 then s
    else if s[0] - 1 <= 0 then s[1..]
    else [s[0] - 1] + s[1..]
  }

  /** Adding new instances keeps the list usable. */
  lemma AddKeepsUsable(s: seq<int>, qty: nat)
    requires Usable(s)
    ensures Usable(AddInstances(s, qty))
  {
    var r := AddInstances(s, qty);
    forall i | 0 <= i < |r|
      ensures 0 < r[i] <= INITIAL_TOOL_DURABILITY
    {
      if i < |s| {
        assert r[i] == s[i];
      } else {
        assert r[i] == Fresh(qty)[i - |s|];
      }
    }
  }

  /** Removing newest instances keeps the list usable. */
  lemma RemoveKeepsUsable(s: seq<int>, qty: nat)
    requires Usable(s)
    ensures Usable(RemoveNewest(s, qty))
  {
  }

  /**
   * Wear never leaves a spent instance behind: a usable list stays usable,
   * and the total durability left drops by exactly one unit.
   */
  lemma {:induction false} DegradeWearsOneUnit(s: seq<int>)
    requires Usable(s) && |s| > 0
    ensures Usable(DegradeOldest(s))
    ensures Remaining(DegradeOldest(s)) == Remaining(s) - 1
  {
    var r := DegradeOldest(s);
    if s[0] > 1 {
      assert r[1..] == s[1..];
      assert Remaining(r) == r[0] + Remaining(r[1..]);
    } else {
      assert r == s[1..];
    }
  }

  /** The durability left in a concatenation is the sum of the parts. */
  lemma {:induction false} RemainingConcat(a: seq<int>, b: seq<int>)
    ensures Remaining(a + b) == Remaining(a) + Remaining(b)
    decreases |a|
  {
    if |a| == 0 {
      assert a + b == b;
    } else {
      assert (a + b)[1..] == a[1..] + b;
      RemainingConcat(a[1..], b);
    }
  }

  /** `qty` fresh instances carry `qty` times the initial durability. */
  lemma {:induction false} RemainingFresh(qty: nat)
    ensures Remaining(Fresh(qty)) == qty * INITIAL_TOOL_DURABILITY
    decreases qty
  {
    if qty > 0 {
      assert Fresh(qty)[1..] == Fresh(qty - 1);
      RemainingFresh(qty - 1);
    }
  }

  /** Each usable instance carries between one unit and a new tool's durability. */
  lemma {:induction false} UsableRemainingBounds(s: seq<int>)
    requires Usable(s)
    ensures |s| <= Remaining(s) <= |s| * INITIAL_TOOL_DURABILITY
    decreases |s|
  {
    if |s| > 0 {
      assert Usable(s[1..]) by {
        forall i | 0 <= i < |s| - 1 ensures 0 < s[1..][i] <= INITIAL_TOOL_DURABILITY {
          assert s[1..][i] == s[i + 1];
        }
      }
      UsableRemainingBounds(s[1..]);
    }
  }

  /** Adding `qty` instances adds exactly `qty` new instances' worth of durability. */
  lemma AddAddsFullDurability(s: seq<int>, qty: nat)
    ensures Remaining(AddInstances(s, qty)) == Remaining(s) + qty * INITIAL_TOOL_DURABILITY
  {
    RemainingConcat(s, Fresh(qty));
    RemainingFresh(qty);
  }

  /** Last in, first out: removing as many as were just added gives back the list. */
  lemma AddThenRemoveRestores(s: seq<int>, qty: nat)
    ensures RemoveNewest(AddInstances(s, qty), qty) == s
  {
    var a := AddInstances(s, qty);
    assert a[..|s|] == s;
  }

  /**
   * Wear and supply act on opposite ends: degrading after an add is the same
   * as adding after a degrade whenever an older instance exists.
   */
  lemma DegradeIgnoresNewInstances(s: seq<int>, qty: nat)
    requires |s| > 0
    ensures DegradeOldest(AddInstances(s, qty)) == AddInstances(DegradeOldest(s), qty)
  {
    var a := s + Fresh(qty);
    assert a[0] == s[0];
    assert a[1..] == s[1..] + Fresh(qty);
    if s[0] - 1 <= 0 {
      assert DegradeOldest(a) == s[1..] + Fresh(qty);
    } else {
      assert DegradeOldest(a) == [s[0] - 1] + (s[1..] + Fresh(qty));
      assert [s[0] - 1] + (s[1..] + Fresh(qty)) == ([s[0] - 1] + s[1..]) + Fresh(qty);
    }
  }

  /** The tool lists of one villager, one per tool kind (`self.tools`). */
  datatype ToolStore = ToolStore(axe: seq<int>, bow: seq<int>, hoe: seq<int>) {

    function Get(t: Tool): seq<int>
    {
      if t == Axe then axe else if t == Bow then bow else hoe
    }

    function With(t: Tool, s: seq<int>): (r: ToolStore)
      ensures r.Get(t) == s
      ensures forall u: Tool :: u != t ==> r.Get(u) == Get(u)
    {
      if t == Axe then this.(axe := s)
      else if t == Bow then this.(bow := s)
      else this.(hoe := s)
    }

    /** Every list in the store is usable. */
    predicate AllUsable()
    {
      Usable(axe) && Usable(bow) && Usable(hoe)
    }
  }

  /** A new villager owns no tools. */
  const NoTools: ToolStore := ToolStore([], [], [])

  /** Writing back what was read leaves the store as it was. */
  lemma WithOwnIsIdentity(ts: ToolStore, t: Tool)
    ensures ts.With(t, ts.Get(t)) == ts
  {
  }
}

=== FILE: util.dfy ===
/** Small shared definitions: an optional value and integer clamps. */
module Util {

  /** A value that may be absent; stands for Python's `None`. */
  datatype Option<+T> = None | Some(value: T)

  /** Python's `min` on two integers. */
  function Min(a: int, b: int): int
  {
    if a <= b then a else b
  }

  /** Python's `max` on two integers. */
  function Max(a: int, b: int): int
  {
    if a >= b then a else b
  }
}

=== FILE: villager.dfy ===
/**
 * A villager: needs, streak counters, resource counters, coins and tools,
 * together with the villager's own tool helpers.
 */
module Villagers {
  import opened Util
  import opened Catalog
  import opened Tools

  /**
   * One villager. Hunger and rest are exact reals (the source keeps them as
   * floats and subtracts a third per step); the other scalars are integers.
   * The inventory always holds exactly the keys food and wood.
   */
  datatype Villager = Villager(
    id: nat,
    role: Role,
    hunger: real,
    rest: real,
    health: int,
    happiness: int,
    hungerStreak: nat,
    restStreak: nat,
    food: int,
    wood: int,
    coins: int,
    tools: ToolStore)

  /** A freshly spawned villager (`Villager.__init__`). */
  function NewVillager(id: nat, role: Role): (r: Villager)
    ensures r.id == id && r.role == role
    ensures forall t: Tool :: ToolCount(r, t) == 0
    ensures Sound(r)
  {
    Villager(id, role, 10.0, 10.0, 10, 10, 0, 0,
             INITIAL_VILLAGER_FOOD, INITIAL_VILLAGER_WOOD, INITIAL_VILLAGER_COINS, NoTools)
  }

  /** The inventory counter of a resource; tools are never in the inventory. */
  function Stockpile(v: Villager, i: Item): int
  {
    if i == Food then v.food else if i == Wood then v.wood else 0
  }

  /** Sets the inventory counter of a resource. */
  function WithStockpile(v: Villager, i: Item, n: int): Villager
    requires !i.IsTool()
  {
    if i == Food then v.(food := n) else v.(wood := n)
  }

  /** `get_tool_count`: the number of instances of `t` held, worn or not. */
  function ToolCount(v: Villager, t: Tool): (n: nat)
    ensures n == 0 <==> v.tools.Get(t) == []
  {
    |v.tools.Get(t)|
  }

  /** How many of an item the villager holds: instances for tools, the counter otherwise. */
  function Holding(v: Villager, i: Item): int
  {
    if i.IsTool() then ToolCount(v, i) else Stockpile(v, i)
  }

  /** The villager's coins plus everything held, valued at market price. */
  function Wealth(v: Villager): int
  {
    v.coins + Price(Food) * v.food + Price(Wood) * v.wood
    + Price(Axe) * ToolCount(v, Axe) + Price(Bow) * ToolCount(v, Bow) + Price(Hoe) * ToolCount(v, Hoe)
  }

  /**
   * The bounds every villager keeps: each status scalar in [0, 10], no
   * negative counter or balance, and every tool instance usable.
   */
  predicate Sound(v: Villager)
  {
    && 0.0 <= v.hunger <= STATUS_MAX as real
    && 0.0 <= v.rest <= STATUS_MAX as real
    && 0 <= v.health <= STATUS_MAX
    && 0 <= v.happiness <= STATUS_MAX
    && v.food >= 0 && v.wood >= 0 && v.coins >= 0
    && v.tools.AllUsable()
  }

  /** Identity, role, needs and streaks agree: only goods and coins may differ. */
  predicate SamePerson(a: Villager, b: Villager)
  {
    && a.id == b.id && a.role == b.role
    && a.hunger == b.hunger && a.rest == b.rest
    && a.health == b.health && a.happiness == b.happiness
    && a.hungerStreak == b.hungerStreak && a.restStreak == b.restStreak
  }

  /** A new villager starts within every bound. */
  lemma NewVillagerIsSound(id: nat, role: Role)
    ensures Sound(NewVillager(id, role))
    ensures Wealth(NewVillager(id, role)) == INITIAL_VILLAGER_COINS + 3 + 4
    ensures var v := NewVillager(id, role);
      && v.coins == 10 && v.food == 3 && v.wood == 2
      && v.hunger == 10.0 && v.rest == 10.0 && v.health == 10 && v.happiness == 10
      && v.hungerStreak == 0 && v.restStreak == 0
      && v.tools == NoTools
  {
  }

  /**
   * For a sound villager the count of `t` is bounded by the durability it
   * represents: at least one unit, at most a new tool's worth, per instance.
   */
  lemma ToolCountBounds(v: Villager, t: Tool)
    requires Sound(v)
    ensures ToolCount(v, t) <= Remaining(v.tools.Get(t)) <= ToolCount(v, t) * INITIAL_TOOL_DURABILITY
  {
    UsableRemainingBounds(v.tools.Get(t));
  }

  /** `add_tool`: `qty` new instances at full durability join the end of the list. */
  function AddTool(v: Villager, t: Tool, qty: nat): (r: Villager)
    ensures ToolCount(r, t) == ToolCount(v, t) + qty
    ensures r.tools.Get(t)[..ToolCount(v, t)] == v.tools.Get(t)
    ensures forall k :: ToolCount(v, t) <= k < ToolCount(r, t) ==> r.tools.Get(t)[k] == INITIAL_TOOL_DURABILITY
    ensures forall u: Tool :: u != t ==> r.tools.Get(u) == v.tools.Get(u)
    ensures r == v.(tools := r.tools)
    ensures Sound(v) ==> Sound(r)
  {
    var s := AddInstances(v.tools.Get(t), qty);
    assert Sound(v) ==> Usable(s) by {
      if Sound(v) { AddKeepsUsable(v.tools.Get(t), qty); }
    }
    assert forall k :: |v.tools.Get(t)| <= k < |s| ==> s[k] == Fresh(qty)[k - |v.tools.Get(t)|];
    v.(tools := v.tools.With(t, s))
  }

  /**
   * `remove_tool`: up to `qty` of the newest instances are dropped; asking for
   * more than are held empties the list rather than failing.
   */
  function RemoveTool(v: Villager, t: Tool, qty: nat): (r: Villager)
    ensures ToolCount(r, t) == ToolCount(v, t) - Min(qty, ToolCount(v, t))
    ensures r.tools.Get(t) == v.tools.Get(t)[..ToolCount(r, t)]
    ensures forall u: Tool :: u != t ==> r.tools.Get(u) == v.tools.Get(u)
    ensures r == v.(tools := r.tools)
    ensures Sound(v) ==> Sound(r)
  {
    assert Sound(v) ==> Usable(RemoveNewest(v.tools.Get(t), qty)) by {
      if Sound(v) { RemoveKeepsUsable(v.tools.Get(t), qty); }
    }
    v.(tools := v.tools.With(t, RemoveNewest(v.tools.Get(t), qty)))
  }

  /**
   * `degrade_tool`: the oldest instance loses one unit of durability and
   * breaks (leaves the list) at zero; the newer instances are untouched and a
   * villager without the tool is unchanged.
   */
  function DegradeTool(v: Villager, t: Tool): (r: Villager)
    ensures ToolCount(v, t) == 0 ==> r == v
    ensures ToolCount(v, t) > 0 ==> (ToolCount(r, t) == ToolCount(v, t) - 1 <==> v.tools.Get(t)[0] <= 1)
    ensures ToolCount(v, t) > 0 && v.tools.Get(t)[0] > 1 ==>
              ToolCount(r, t) == ToolCount(v, t) && r.tools.Get(t)[0] == v.tools.Get(t)[0] - 1
    ensures ToolCount(v, t) > 0 ==> ToolCount(r, t) >= ToolCount(v, t) - 1
    ensures ToolCount(v, t) > 0 ==> r.tools.Get(t)[ToolCount(r, t) - (ToolCount(v, t) - 1)..] == v.tools.Get(t)[1..]
    ensures forall u: Tool :: u != t ==> r.tools.Get(u) == v.tools.Get(u)
    ensures r == v.(tools := r.tools)
    ensures Sound(v) && ToolCount(v, t) > 0 ==> Sound(r) && Remaining(r.tools.Get(t)) == Remaining(v.tools.Get(t)) - 1
  {
    if |v.tools.Get(t)| == 0 then v
    else
      var s := v.tools.Get(t);
      assert Sound(v) ==> Usable(DegradeOldest(s)) && Remaining(DegradeOldest(s)) == Remaining(s) - 1 by {
        if Sound(v) { DegradeWearsOneUnit(s); }
      }
      v.(tools := v.tools.With(t, DegradeOldest(s)))
  }

  /** A tool instance at durability 1 breaks on its next use, and the count drops by one. */
  lemma LastUseBreaksTool(v: Villager, t: Tool)
    requires ToolCount(v, t) > 0 && v.tools.Get(t)[0] == 1
    ensures ToolCount(DegradeTool(v, t), t) == ToolCount(v, t) - 1
    ensures DegradeTool(v, t).tools.Get(t) == v.tools.Get(t)[1..]
  {
  }

  /** Giving a villager tools and taking the same number back restores the villager. */
  lemma AddThenRemoveToolRestores(v: Villager, t: Tool, qty: nat)
    ensures RemoveTool(AddTool(v, t, qty), t, qty) == v
  {
    var a := AddTool(v, t, qty);
    var r := RemoveTool(a, t, qty);
    AddThenRemoveRestores(v.tools.Get(t), qty);
    assert r.tools.Get(t) == v.tools.Get(t);
    assert r.tools == v.tools.With(t, v.tools.Get(t));
    WithOwnIsIdentity(v.tools, t);
  }
}

=== FILE: world.dfy ===
/**
 * The world: grid, market and clock, with its construction and the per-step
 * resource and event update (storm roll on Morning, forest regrowth always).
 */
module Worlds {
  import opened Catalog
  import opened Villagers
  import opened Ledger
  import opened Tiles
  import opened Calendar

  datatype World = World(width: nat, height: nat, grid: Grid, market: Market, clock: Clock)

  /** A world and one villager after that villager acted on it. */
  datatype Step = Step(world: World, villager: Villager)

  /**
   * The world invariant: a grid of the world's size whose levels are sound,
   * a market with no negative stock, and a consistent clock.
   */
  predicate WorldSound(w: World)
  {
    && Shaped(w.grid, w.width, w.height)
    && TilesSound(w.grid)
    && MarketSound(w.market)
    && Consistent(w.clock)
  }

  /** Same grid layout, same size and same clock: a villager's action keeps these. */
  predicate SameFrame(w: World, w': World)
  {
    && w'.width == w.width && w'.height == w.height
    && w'.clock == w.clock
    && SameLayout(w.grid, w'.grid)
  }

  /** Keeping the frame is transitive. */
  lemma SameFrameTrans(a: World, b: World, c: World)
    requires SameFrame(a, b) && SameFrame(b, c)
    ensures SameFrame(a, c)
  {
    forall y, x | 0 <= y < |a.grid| && 0 <= x < |a.grid[y]|
      ensures c.grid[y][x].terrain == a.grid[y][x].terrain && c.grid[y][x].owner == a.grid[y][x].owner
    {
      assert |b.grid[y]| == |a.grid[y]|;
    }
  }

  /** `is_winter`. */
  function IsWinter(w: World): (b: bool)
    ensures b <==> SEASONS[w.clock.seasonIndex % |SEASONS|] == Winter
    ensures Consistent(w.clock) ==> (b <==> ((w.clock.day - 1) / DAYS_PER_SEASON) % NUM_SEASONS == NUM_SEASONS - 1)
  {
    CurrentSeason(w.clock) == Winter
  }

  /**
   * `World.__init__`: a generated grid, the opening market, and the clock at
   * day 1, Spring, Morning.
   */
  function NewWorld(width: nat, height: nat, choice: seq<seq<Terrain>>, farmers: nat): (w: World)
    requires |choice| == height && forall y :: 0 <= y < height ==> |choice[y]| == width
    requires farmers == 0 || height <= FIRST_PLOT_ROW || width > PLOT_COL
    ensures WorldSound(w)
    ensures w.clock == Dawn && w.market == Opening
  {
    World(width, height, GenerateTiles(width, height, choice, farmers), Opening, Dawn)
  }

  /** The storm roll of one Morning: calm, or a storm with its drawn positions. */
  datatype Weather = Calm | Stormy(hits: seq<Pos>)

  /** A storm draws (width * height) // 4 positions, each inside the grid. */
  predicate ValidWeather(w: World, weather: Weather)
  {
    weather.Stormy? ==>
      && |weather.hits| == (w.width * w.height) / STORM_AREA_DIVISOR
      && forall k :: 0 <= k < |weather.hits| ==>
           0 <= weather.hits[k].row < w.height && 0 <= weather.hits[k].col < w.width
  }

  /** `_trigger_storm`. */
  function TriggerStorm(w: World, hits: seq<Pos>): (r: World)
    requires Shaped(w.grid, w.width, w.height)
    requires ValidWeather(w, Stormy(hits))
    ensures r == w.(grid := r.grid)
    ensures SameLayout(w.grid, r.grid)
    ensures forall y, x :: 0 <= y < w.height && 0 <= x < w.width ==>
              r.grid[y][x].level == StruckLevel(w.grid[y][x].level, HitCount(hits, Pos(y, x)))
    ensures WorldSound(w) ==> WorldSound(r)
  {
    assert forall k :: 0 <= k < |hits| ==> InBounds(w.grid, hits[k]);
    StormLevels(w.grid, hits);
    assert TilesSound(w.grid) ==> TilesSound(Storm(w.grid, hits)) by {
      if TilesSound(w.grid) { StormKeepsSound(w.grid, hits); }
    }
    w.(grid := Storm(w.grid, hits))
  }

  /**
   * `update_resources_and_events`: on Morning a storm (if rolled) strikes
   * first; then every forest regrows. Weather is ignored on other parts of
   * the day. Terrain and ownership never change, no level goes negative, and
   * no forest rises past its cap.
   */
  function UpdateResourcesAndEvents(w: World, weather: Weather): (r: World)
    requires Shaped(w.grid, w.width, w.height)
    requires ValidWeather(w, weather)
    ensures r == w.(grid := r.grid)
    ensures SameLayout(w.grid, r.grid)
    ensures w.clock.partIndex != 0 || weather.Calm? ==> r.grid == Regrow(w.grid)
    ensures w.clock.partIndex == 0 && weather.Stormy? ==> r.grid == Regrow(TriggerStorm(w, weather.hits).grid)
    ensures TilesSound(w.grid) ==>
              forall y, x :: 0 <= y < w.height && 0 <= x < w.width && w.grid[y][x].terrain != Forest ==>
                r.grid[y][x].level <= w.grid[y][x].level
    ensures WorldSound(w) ==> WorldSound(r)
  {
    var struck := if w.clock.partIndex == 0 && weather.Stormy? then TriggerStorm(w, weather.hits) else w;
    struck.(grid := Regrow(struck.grid))
  }

  /** Neither a storm nor regrowth can lift a field from level 0. */
  lemma UpdateKeepsIdleField(w: World, weather: Weather, p: Pos)
    requires WorldSound(w) && ValidWeather(w, weather)
    requires IdleField(w.grid, p)
    ensures IdleField(UpdateResourcesAndEvents(w, weather).grid, p)
  {
    var g := UpdateResourcesAndEvents(w, weather).grid;
    assert |g[p.row]| == |w.grid[p.row]|;
  }
}
